=== FILE: README.md ===
# porta rendering pipeline in Dafny

porta is a small terminal typewriter. Every key it receives changes the
content buffer. Then the whole content is redrawn:

1. copy the content;
2. censor the copy when censoring is on;
3. when the terminal is kitty, rewrite lightweight markup (headings, `**bold**`,
   `[[wikilinks]]`) into terminal control sequences;
4. wrap the text into lines of 80 visible columns, without cutting an escape
   sequence;
5. draw the newest lines upwards from the middle row of the screen.

This project models that pipeline as pure functions over byte sequences and
proves what each stage promises. It covers the growable string `pt_str`
(ds.c), the censor, formatter, escape skipper, wrapper and draw plan
(render.c), and the key dispatch and cursor escape (editor.c).

Modules, one per file, in dependency order:

| file | module | models |
|---|---|---|
| bytes.dfy | `Bytes` | bytes, `unsigned short` wrap-around, `%d` decimal printing |
| pt_str.dfy | `PtString` | `pt_str`: init, from, append, append_char, delete_char, free |
| censor.dfy | `Censor` | `censor_text` |
| escape.dfy | `Escape` | `pt_skip_escape_sequence` and the token stream the wrapper walks |
| format.dfy | `Format` | `pt_format_heading`, `pt_format_bold`, `pt_format_wikilink`, `pt_format_string` |
| wrap.dfy | `Wrap` | both passes of `pt_split_lines` |
| editor.dfy | `Editor` | `PTState`, `pt_process_key_press`, `pt_add_char`, `pt_delete_char`, `pt_move_cursor` |
| render.dfy | `Render` | `pt_render_state`: the draw plan |

Modelling decisions:

- A `pt_str` is its content plus its capacity. `Buffer` is the subtype that
  keeps the invariants every operation maintains:
  - the content holds no NUL, since every reader stops at the first NUL;
  - capacity 0 means released and empty;
  - otherwise `len + 1 <= cap`.
- Appending takes an arbitrary byte sequence. As `strlen` does, only the part
  before the first NUL is appended, so `append_char(0)` appends nothing.
- The escape skipper works on the input from the ESC onwards. It returns how
  many bytes the sequence covers, which is where the C pointer it returns
  would land. Both wrapper passes walk the resulting tokens: one whole
  escape sequence, or one ordinary byte.
- A heading of four or more `#` gives level 0. The newline loop
  `k <= level - 1` runs on `size_t`, so for level 0 it never ends. The model
  returns `Hang` / `Diverges` for that case rather than a result.
- The `unsigned short` casts of the render and the `size_t` subtraction of
  the heading's newline loop are written out with explicit moduli
  (`Bytes.U16`, `Format.NewlineLoop`). Other integer casts are taken as
  exact; "## Left out" lists them.
- The kitty test (`TERM`) and the window size (`ioctl`) are parameters.
- Nothing is printed. The render returns the wrapped lines and the list of
  draws, and the key dispatch returns `Continue`, `Quit` or `Save`.

Where the code and its documentation disagree, the model follows the code:

| topic | code | comment or description |
|---|---|---|
| censor glyph | writes `'X'` (render.c:23) | render.h:10 says an asterisk |
| `pt_split_lines` failure | returns -1 (render.c:194-195, 213-214) | comment at render.c:191 says 0 |

The two passes of the wrapper also disagree with each other, and the model
keeps that defect. Pass 1 resets its column counter to 0 on the byte that
triggers a wrap (render.c:203-205), while pass 2 puts that byte on the new
line and counts it (render.c:238-243). A line that a
wrap-trigger byte opens can hold 81 bytes in pass 1 (the trigger and 80
more), but only 80 in pass 2. A line opened by a newline holds 80 in both. So
pass 2 can run out of lines before the input ends, and everything after that
point is lost. The smallest case is a text of exactly 161 ordinary bytes. It
gets two lines, and its last byte is never shown
(`Wrap.SecondPassDropsInput`). When more text follows such a run, it is that
later text that is lost. A final newline after such a run loses its empty
line too: 161 ordinary bytes and a newline get three lines, the last holding
the 161st byte, and none of them empty (`Wrap.TrailingNewlineAfterLongRun`). When no newline-free run needs a wrap, the two
passes agree and the lines hold the whole input (`Wrap.SplitLinesWhole`).

## Model

| member | source | states |
|---|---|---|
| Bytes.U16 | render.c:278-280 | conversion to `unsigned short` is the identity in range and adds 65536 to a negative `int` in [-65536, 0) |
| Bytes.FindByte | render.c:36 | `strchr`: the result is the first index holding the byte, or none exists |
| Bytes.Decimal | editor.c:270 | `%d` output: at least one digit, only digits, no leading zero except for 0 itself, one digit exactly below 10 |
| Bytes.DecimalRoundTrip | editor.c:270 | reading the printed decimal digits back gives the number |
| PtString.Init | ds.c:26-34 | a fresh buffer is empty with capacity 16 |
| PtString.Free | ds.c:36-41 | a released buffer is empty with capacity 0 |
| PtString.CStr | ds.c:48 | `strlen`: the longest NUL-free prefix, stopped by a NUL when shorter than the input |
| PtString.GrowCapacity | ds.c:51-55 | the growth loop reaches the required size by doubling; it never shrinks; when it grew, half the result was too small |
| PtString.Append | ds.c:43-69 | a released buffer refuses with -1 and is unchanged; otherwise the C-string part of the suffix is appended and its length returned; the capacity keeps `len + 1 <= cap`, is unchanged when the content fits, and otherwise is a doubling whose half would not fit |
| PtString.AppendChar | ds.c:71-74 | a non-NUL byte on a live buffer extends the content by exactly that byte; a NUL byte or a released buffer changes nothing |
| PtString.DeleteChar | ds.c:76-80 | the last byte is dropped and the capacity kept; empty content is left alone |
| PtString.From | ds.c:20-24 | the copy holds the C-string part of its argument, with a capacity of 16 doubled some number of times |
| PtString.AppendAllAccumulates | ds.c:264-273 | after any sequence of appends to a live buffer the content is the old content followed by every suffix's C-string part, and the growth equals the sum of the return codes |
| PtString.AppendEmptyChangesNothing | ds.c:300-310 | appending the empty string returns 0 and leaves content and capacity unchanged |
| PtString.DeleteUndoesAppendChar | ds.c:155-167 | deleting right after appending a non-NUL byte restores the content |
| PtString.FreedBufferIsInert | ds.c:241-251 | a released buffer refuses appends; releasing again and deleting change nothing |
| PtString.CapacityBoundaries | ds.c:213-239 | 15 bytes fit in 16; the 16th doubles to 32; 31 bytes fit in 32; the 32nd doubles to 64 |
| PtString.CStrOfNulFree | ds.c:48 | the C string of a NUL-free sequence is the whole sequence |
| PtString.DeleteTwiceThenAppend | ds.c:253-262 | after two deletions from a fresh copy, an append replaces the two dropped bytes with its C-string part ("hello", two deletions, "p!" gives "help!") |
| Censor.CensorText | render.c:15-26 | same length; letters and digits before the last byte become 'X'; other bytes and the last byte are kept; equals the position-wise reference `Censored` |
| Censor.CensorIdempotent | render.c:20-25 | censoring censored text changes nothing |
| Censor.CensorKeepsNulFree | render.c:22-23 | censoring never introduces a NUL |
| Censor.SecretExample | render.c:15-26 | "Secret123" becomes eight 'X' followed by '3' |
| Escape.CsiScan | render.c:170-171 | the first index at or after the start holding `m`, `H` or `J`, or the end |
| Escape.OscScan | render.c:174-176 | the first index at or after the start where BEL or `ESC \` begins, or the end |
| Escape.EscapeLength | render.c:161-186 | 0 exactly when the input does not start with ESC; a CSI ends just after its first `m`/`H`/`J` or runs to the end; an OSC ends just after BEL or `ESC \` or runs to the end; any other escape covers ESC and one more byte if there is one; never past the end |
| Escape.EscapeLengthOfToken | render.c:161-186 | a sequence cut at the end of its escape still holds exactly that escape |
| Escape.Tokenize | render.c:199-208 | the tokens the wrapper walks concatenate back to the input |
| Escape.TokensAreWhole | render.c:200-202 | the token at index `k` is what the scan takes at the offset where the tokens before it end: the whole escape sequence the skipper finds there, or one ordinary byte that is not ESC; each escape token is also self-delimiting on its own |
| Escape.TokenizeEscFree | render.c:203-207 | ESC-free text is walked one ordinary byte at a time |
| Escape.CsiLength | render.c:168-185 | a CSI whose parameters hold no final byte covers exactly ESC, `[`, the parameters and the final byte, whatever follows |
| Escape.OscLength | render.c:172-181 | an OSC whose body holds no BEL and no ESC covers exactly up to and including its BEL, whatever follows |
| Escape.TokenizeEscapeFirst | render.c:226-233 | a complete escape sequence at the front is taken as one token |
| Format.HashRun | render.c:35 | `strspn` of `#`: a run of `#` bytes ending at the end or at a non-`#` byte |
| Format.FindPair | render.c:79 | `strstr` of a doubled byte: the first occurrence at or after the start, or none exists |
| Format.LastIndex | render.c:110-117 | the last occurrence of a byte in the span, or none exists |
| Format.LabelStart | render.c:110-120 | the shown text starts just after the last `\|` of the span, or at the span's start when it holds no `\|` |
| Format.NewlineLoop | render.c:66-68 | the `size_t` loop emits `level` newlines and never ends exactly when `level` is 0 |
| Format.Heading | render.c:34-72 | always advances; a malformed heading emits its `#` and advances by one; with four or more `#` it hangs; otherwise it emits OSC 66 with level `4 - n` and the text up to the newline (dropped when 128 bytes or more), then `level` newlines, and resumes after the newline |
| Format.Bold | render.c:74-99 | always advances; with no closing `**` it emits `**` and advances by 2; otherwise SGR 1, the text verbatim and SGR 0, or nothing when that is 128 bytes or more, and it resumes after the closer |
| Format.Wikilink | render.c:100-133 | always advances; with no closing `]]` it emits `[[` and advances by 2; otherwise SGR 4, the text after the last `\|` (or the whole span) and SGR 0, or nothing when that is 128 bytes or more, and it resumes after the closer |
| Format.FormatStep | render.c:139-156 | always advances; heading before bold before wikilink; any other byte is copied; only a deep heading hangs |
| Format.FormatPlainText | render.c:135-159 | text with no line-start `#`, no `**` and no `[[` comes out unchanged |
| Format.FormatFromPlain | render.c:153-155 | past the last markup the scan copies the rest verbatim |
| Format.StepNulFree | render.c:139-156 | each step emits NUL-free bytes from NUL-free input |
| Format.FormatFromNulFree | render.c:135-159 | the formatted text is NUL-free, so the returned buffer holds all of it |
| Format.DeepHeadingDiverges | render.c:44-68 | a well-formed heading of four or more `#`, at any position the scan reaches after markup-free text, makes the formatter never return |
| Format.DivergesFrom | render.c:137-155 | from any position before such a heading, the scan copies bytes up to it and then never returns |
| Format.FormatString | render.c:135-159 | the formatter hangs only when a well-formed heading of four or more `#` starts somewhere in the text |
| Format.NoDeepHeadingDone | render.c:137-155 | with no such heading at or after a position, the scan from there returns, whatever bold, wikilink or shallow heading markup the text holds |
| Format.MarkersAreFourBytes | render.c:90 | SGR 1, SGR 4 and SGR 0 are each skipped as exactly four bytes, whatever follows |
| Format.StyledSpanVisible | render.c:90-91 | when the span's text holds no ESC, the visible bytes of a bold or underlined span are exactly its text: the markers take no columns |
| Format.HeadingSequenceInvisible | render.c:57-58 | the OSC 66 heading sequence is a single zero-width token when its text holds no BEL and no ESC |
| Format.NoMarkupShift | render.c:140-149 | the three markup tests look only at a byte and its neighbours, so text with no markup still has none behind any prefix |
| Format.BoldSpan | render.c:74-99 | a closed `**` span without `*` inside and under the 128-byte limit becomes SGR 1, the text verbatim, SGR 0; unmarked text after it is copied |
| Format.UnclosedBoldIsLiteral | render.c:79-86 | a `**` with no `*` after it is copied literally, and so is the unmarked text after it |
| Format.HeadingLine | render.c:34-72 | one to three `#`, a space, text and a newline become OSC 66 of level `4 - n` around the text, then `4 - n` newlines, when the whole sequence is under the 128-byte limit; unmarked text after the line is copied |
| Format.HeadingWithoutNewline | render.c:36-42 | a line-start `#` with no newline after it is copied literally, and so is the unmarked rest |
| Format.LinkWithAlias | render.c:100-133 | a closed wikilink whose shown text is under the 128-byte limit shows the text after its last `\|`, underlined, whatever the target holds; unmarked text after it is copied |
| Format.LinkWithoutAlias | render.c:104-125 | a closed wikilink with no `\|`, under the 128-byte limit, shows its whole target underlined |
| Wrap.CountPass | render.c:199-209 | pass 1 never lowers the line count and adds at most one line per token |
| Wrap.CountFits | render.c:199-209 | when no newline-free run needs a wrap, pass 1 adds exactly one line per newline |
| Wrap.LineCount | render.c:197-209 | there is always at least one line |
| Wrap.FillPass | render.c:220-248 | pass 2 yields exactly the pass-1 count of lines and never rewrites the lines already closed |
| Wrap.SplitLines | render.c:193-252 | one byte string per line, the pass-1 count of them, each the bytes of its tokens |
| Wrap.FillPassLinesOk | render.c:234-247 | every line pass 2 fills has at most 80 visible bytes and no newline outside escape sequences |
| Wrap.FillPassPrefix | render.c:220-248 | what pass 2 lays out is an in-order prefix of its input tokens with the newline tokens removed |
| Wrap.SplitLinesShape | render.c:193-252 | at least one line and exactly the pass-1 count; each at most 80 visible bytes with no newline outside escape sequences; made of whole tokens so no escape is cut; together an in-order prefix of the tokens with the newline tokens removed |
| Wrap.FillWhole | render.c:220-248 | when no run needs a wrap and one line is left per remaining newline, pass 2 lays out its whole input with the newline tokens removed |
| Wrap.SplitLinesWhole | render.c:193-252 | when no newline-free run needs a wrap, there is one line more than there are newlines, and the lines laid end to end are the whole input with its newlines outside escape sequences removed |
| Wrap.SplitLinesPrefixOfInput | render.c:220-248 | in bytes, the lines laid end to end are a prefix of the input with its newlines outside escape sequences removed |
| Wrap.CountRun | render.c:206-207 | pass 1 over ordinary bytes within the budget only advances the column |
| Wrap.FillRun | render.c:244-246 | pass 2 over ordinary bytes within the budget copies them onto the current line |
| Wrap.ShortTextIsOneLine | render.c:193-252 | up to 80 ordinary bytes make a single line holding all of them |
| Wrap.TrailingNewlineAddsEmptyLine | render.c:203-205 | after at most 80 ordinary bytes, a final newline adds an empty last line |
| Wrap.EscapeInLineIsFree | render.c:226-233 | an escape sequence between up to 80 ordinary bytes takes no columns and stays whole on the one line |
| Wrap.LongTextCount | render.c:203-205 | pass 1 gives 161 ordinary bytes two lines |
| Wrap.LongTextFill | render.c:234-243 | pass 2 puts the first 80 bytes on line 1 and the next 80 on line 2 |
| Wrap.LongTextLines | render.c:193-252 | 161 ordinary bytes are laid out as two lines: bytes 0-79 and bytes 80-159 |
| Wrap.UnwrappedOrdinary | render.c:199-208 | with no ESC and no newline, the text the wrapper should lay out is the input itself |
| Wrap.TrailingNewlineAfterLongRun | render.c:203-243 | after 161 ordinary bytes a final newline adds no empty line: the three lines are bytes 0-79, 80-159 and byte 160, none empty |
| Wrap.SecondPassDropsInput | render.c:234-237 | for 161 ordinary bytes the lines hold only the first 160, so the output is not the whole input |
| Wrap.EmptyTextIsOneLine | render.c:198 | empty text is one empty line |
| Editor.InitState | editor.c:22-36 | the editor starts with empty live content, censoring off, and the given size and file name |
| Editor.ControlKeyCodes | editor.h:6 | Ctrl-Q, Ctrl-S and Ctrl-C are 0x11, 0x13 and 0x03 |
| Editor.AddChar | editor.c:38 | a non-NUL key extends live content by that byte; nothing else in the state changes |
| Editor.DeleteLast | editor.c:40 | the last content byte is removed, or nothing when empty; nothing else changes |
| Editor.ProcessKey | editor.c:238-266 | CR appends a newline; DEL removes the last byte; Ctrl-Q, and only it, quits; Ctrl-S, and only it, saves and keeps the state; Ctrl-C flips censoring alone; any other key is appended (NUL appends nothing); size and file name never change, and the content stays live |
| Editor.TypingAppends | editor.c:262-264 | typing text keys into a live editor appends exactly those bytes and leaves censoring as it was |
| Editor.BackspaceUndoesTyping | editor.c:244-246 | a key followed by backspace gives back the content |
| Editor.CensorToggleTwice | editor.c:259-261 | Ctrl-C twice restores the state |
| Editor.MoveCursor | editor.c:268-272 | the cursor escape is empty exactly when the row or column is 0 |
| Editor.MoveCursorRoundTrip | editor.c:268-272 | parsing the cursor escape back gives the row and column it was built from |
| Editor.MoveCursorIsOneEscape | editor.c:270 | the skipper takes a cursor escape whole, whatever follows it |
| Render.CenterRow | render.c:278 | `(rows - 1) / 2` for a non-empty window and 32767 for a window of 0 rows |
| Render.StartCol | render.c:279-280 | `(cols - 80) / 2` for a wide window, and a column at least 32728 for one narrower than 80 |
| Render.Plan | render.c:283-296 | there are `min(N, center) + 1` draws |
| Render.DrawOrder | render.c:283-296 | the loop produces the plan: `min(N, center)` draws of line `N - 1 - i` at row `center - i`, rows strictly decreasing within [1, center], every draw at the start column and naming an existing line, and finally line `N - 1` at the centre row |
| Render.RedrawRepeatsNewest | render.c:294-296 | the final redraw repeats the first draw exactly |
| Render.OldLinesScrollOff | render.c:286-291 | with more lines than rows above the centre, only the newest `center` lines are drawn |
| Render.TinyWindowMovesNoCursor | render.c:278-296 | in a window of 1 or 2 rows the single draw is at row 0, where no cursor move is sent |
| Render.RenderState | render.c:258-276 | the render hangs exactly when the formatter does; otherwise it wraps the censored and formatted content; its draws follow the plan; every line fits 80 columns with no newline outside escape sequences; the lines are a prefix of the wrapped text with those newlines removed, and of the raw content when neither censoring nor kitty applies |

## Left out

- term.c and term.h: raw mode, the locale, the alternate screen and `pt_die`. These are terminal I/O.
- main.c: the argument check and the read/render loop. `Editor.Run` folds keys only to state properties of the dispatch.
- File load and save (editor.c:200-236), `pt_read_key`, the splash screen, `sleep`, `exit`, `printf` and `fflush`. These are effects; the model returns outcomes, lines and draws instead.
- The `ioctl` window-size query and `getenv("TERM")`. Both become parameters.
- The integration tests (pty_test.c, pty_test.h, ui_test.c, simple_ui_test.c, minimal_test.c). They drive a real process through a pseudo-terminal.
- `malloc`, `calloc` and `realloc` failure. Allocation always succeeds in the model, so `pt_split_lines` never returns -1 here.
- `pt_str_new` is `pt_str_init` plus the heap cell that holds the buffer, so `PtString.Init` stands for both.
- Censor.IsAlnum: treats only ASCII letters and digits as alphanumeric. The locale-dependent `isalnum` on bytes of 0x80 and above is left out.
- The copies of `pt_render_state`, `pt_skip_escape_sequence` and `pt_split_lines` in editor.c (editor.c:42-188). The last two are the same as render.c's and are modelled once; the first is an older variant.
- The early return of `pt_format_bold` on input that does not start with `**` (render.c:75-77). The scan calls it only on `**`, so that path is unreachable.
- Render.DrawOrder: the `(int)` cast of the `size_t` line count and the `int` arithmetic on it are taken without overflow. Only the line index cast to `unsigned short` is modelled, and the lemmas about the plan assume at most 65536 lines.
- Format.NewlineLoop: the level is at most 4, so `size_t` wrap-around matters only for level 0, which is the case that never ends.
- Format.Heading, Format.Bold, Format.Wikilink: the `(int)` cast of the span length passed as the `snprintf` precision (render.c:58, 91, 125) is taken without wrap-around. On a 64-bit `size_t` a span of 2^32 bytes or more gives a reduced or negative precision and a truncated span; the model emits nothing whenever the whole sequence with the full span would reach 128 bytes.
- PtString.Append: the return code is the appended length without the `(int)` cast of ds.c:68, so a suffix of 2^31 bytes or more does not wrap to a negative code.
- Wrap.SplitLines: the NUL terminator of each line and the `calloc`ed array are not modelled. Lines are byte sequences.

=== FILE: bytes.dfy ===
/** Byte-level vocabulary shared by every component of the editor: the byte
    and `unsigned short` types, the control and ASCII bytes the pipeline looks
    for, and the decimal rendering that printf's `%d`/`%zu` perform. */
module Bytes {

  /** One byte of a C string. */
  type byte = b: int | 0 <= b < 256

  /** An `unsigned short`, the type of the terminal dimensions. */
  type u16 = x: int | 0 <= x < 0x1_0000

  /** Conversion of an `int` to `unsigned short`: C reduces modulo 2^16, which
      is Dafny's (Euclidean) `%`. */
  function U16(x: int): (r: u16)
    ensures 0 <= x < 0x1_0000 ==> r == x
    ensures -0x1_0000 <= x < 0 ==> r == x + 0x1_0000
  {
    x % 0x1_0000
  }

  datatype Option<+T> = None | Some(value: T)

  const NUL: byte := 0
  const BEL: byte := 7
  const NL: byte := 10
  const CR: byte := 13
  const ESC: byte := 27
  const DEL: byte := 127
  const SPACE: byte := ' ' as int
  const HASH: byte := '#' as int
  const STAR: byte := '*' as int
  const SEMI: byte := ';' as int
  const LBRACKET: byte := '[' as int
  const RBRACKET: byte := ']' as int
  const BACKSLASH: byte := '\\' as int
  const PIPE: byte := '|' as int
  const DIGIT0: byte := '0' as int

  /** What every C string in the program is: no byte 0 before its end. */
  predicate NulFree(s: seq<byte>) {
    forall k :: 0 <= k < |s| ==> s[k] != NUL
  }

  predicate IsDigit(b: byte) {
    DIGIT0 <= b <= DIGIT0 + 9
  }

  /** `n` copies of `b`. */
  function Repeat(b: byte, n: nat): (r: seq<byte>)
    ensures |r| == n
    ensures forall k :: 0 <= k < n ==> r[k] == b
  {
    seq(n, _ => b)
  }

  /* Sequence algebra. The lemmas from here to `SliceCons` model nothing in
     the program: each states one regrouping of concatenations or slices,
     proved once on its own, so that the proofs about the model can cite it
     instead of re-deriving it among many other facts. */

  lemma ConcatAssoc<T>(a: seq<T>, b: seq<T>, c: seq<T>)
    ensures a + b + c == a + (b + c)
  {
  }

  lemma ConcatRegroup<T>(a: seq<T>, b: seq<T>, c: seq<T>, d: seq<T>)
    ensures a + (b + c) + d == a + b + (c + d)
  {
  }

  lemma ConcatEmpty<T>(a: seq<T>)
    ensures a + [] == a && [] + a == a
  {
  }

  lemma SliceCons<T>(x: seq<T>, i: nat, j: nat)
    requires i < j <= |x|
    ensures x[i..j] == [x[i]] + x[i + 1..j]
  {
  }

  /** The first index at or after `from` holding `b` (C's `strchr`). */
  function FindByte(s: seq<byte>, from: nat, b: byte): (r: Option<nat>)
    requires from <= |s|
    ensures r.Some? ==> from <= r.value < |s| && s[r.value] == b
    ensures r.Some? ==> forall k :: from <= k < r.value ==> s[k] != b
    ensures r.None? ==> forall k :: from <= k < |s| ==> s[k] != b
    decreases |s| - from
  {
    if from == |s| then None
    else if s[from] == b then Some(from)
    else FindByte(s, from + 1, b)
  }

  /** Decimal digits of `n`, most significant first, as printf writes them. */
  function Decimal(n: nat): (r: seq<byte>)
    ensures 1 <= |r|
    ensures forall k :: 0 <= k < |r| ==> IsDigit(r[k])
    ensures r[0] == DIGIT0 ==> n == 0
    ensures n < 10 <==> |r| == 1
    decreases n
  {
    if n < 10 then [DIGIT0 + n] else Decimal(n / 10) + [DIGIT0 + n % 10]
  }

  /** The number a string of decimal digits denotes. */
  function DecimalValue(s: seq<byte>): nat
    requires forall k :: 0 <= k < |s| ==> IsDigit(s[k])
  {
    if s == [] then 0
    else
      var last := s[|s| - 1];
      assert IsDigit(last);
      10 * DecimalValue(s[..|s| - 1]) + (last - DIGIT0)
  }

  /** Printing a number in decimal and reading it back gives the number. */
  lemma {:induction false} DecimalRoundTrip(n: nat)
    ensures DecimalValue(Decimal(n)) == n
    decreases n
  {
    if n >= 10 {
      var d := Decimal(n / 10);
      DecimalRoundTrip(n / 10);
      assert (d + [DIGIT0 + n % 10])[..|d|] == d;
    }
  }
}

=== FILE: censor.dfy ===
/** The censor transform of render.c (`censor_text`): every ASCII letter or
    digit except the final byte is overwritten with 'X', so the last typed
    character stays readable while the rest is redacted. */
module Censor {
  import opened Bytes

  const REDACTED: byte := 'X' as int

  /** `isalnum` restricted to ASCII. */
  predicate IsAlnum(b: byte) {
    || ('0' as int <= b <= '9' as int)
    || ('A' as int <= b <= 'Z' as int)
    || ('a' as int <= b <= 'z' as int)
  }

  /** Reference definition, position by position. */
  function Censored(s: seq<byte>): seq<byte> {
    seq(|s|, k requires 0 <= k < |s| => if k < |s| - 1 && IsAlnum(s[k]) then REDACTED else s[k])
  }

  /** The in-place loop of `censor_text`, over an immutable copy. */
  method CensorText(text: seq<byte>) returns (r: seq<byte>)
    ensures |r| == |text|
    ensures forall k :: 0 <= k < |text| - 1 && IsAlnum(text[k]) ==> r[k] == REDACTED
    ensures forall k :: 0 <= k < |text| - 1 && !IsAlnum(text[k]) ==> r[k] == text[k]
    ensures |text| > 0 ==> r[|text| - 1] == text[|text| - 1]
    ensures r == Censored(text)
  {
    r := text;
    if |text| == 0 {
      return;
    }
    var i := 0;
    while i < |text| - 1
      invariant 0 <= i <= |text| - 1
      invariant |r| == |text|
      invariant forall k :: 0 <= k < i ==> r[k] == Censored(text)[k]
      invariant forall k :: i <= k < |text| ==> r[k] == text[k]
    {
      if IsAlnum(r[i]) {
        r := r[i := REDACTED];
      }
      i := i + 1;
    }
  }

  /** Censoring already-censored text changes nothing ('X' is itself
      alphanumeric and is rewritten to 'X'). */
  lemma CensorIdempotent(s: seq<byte>)
    ensures Censored(Censored(s)) == Censored(s)
  {
  }

  /** Censoring never introduces a NUL, so the result is again a C string. */
  lemma CensorKeepsNulFree(s: seq<byte>)
    requires NulFree(s)
    ensures NulFree(Censored(s))
  {
  }

  /** "Secret123" becomes eight 'X' and the untouched final '3'. */
  lemma SecretExample()
    ensures var secret := [83, 101, 99, 114, 101, 116, 49, 50, 51];
            Censored(secret) == Repeat(REDACTED, 8) + [51]
  {
  }
}

=== FILE: editor.dfy ===
/** The editor state and the key dispatch of editor.c (`PTState`,
    `pt_process_key_press`, `pt_add_char`, `pt_delete_char`) and the cursor
    escape `pt_move_cursor`. Reading the key, saving the file, printing and
    exiting are effects outside the model: the dispatch returns what the
    editor does next instead of doing it. */
module Editor {
  import opened Bytes
  import opened PtString
  import opened Escape

  /** `PTState`. The window size comes from the terminal and is a parameter. */
  datatype State = State(rows: u16, cols: u16, content: Buffer, filename: Buffer, censored: bool)

  /** What the editor does after a key: keep editing, exit, or save the
      content (and then keep editing with the same state). */
  datatype Outcome = Continue(st: State) | Quit | Save(st: State)

  /** The content buffer is live: it was made by `pt_str_new` and is never
      released while the editor runs. */
  predicate Live(st: State) {
    st.content.cap != 0
  }

  /** `pt_init_glob_state`: an empty content buffer, censoring off. */
  function InitState(rows: u16, cols: u16, filename: Buffer): (st: State)
    ensures Live(st) && st.content.data == [] && !st.censored
    ensures st.rows == rows && st.cols == cols && st.filename == filename
  {
    State(rows, cols, Init(), filename, false)
  }

  /** `CTRL_KEY(k)`: the low five bits of `k`. */
  function CtrlKey(k: byte): byte {
    ((k as bv8) & 0x1F) as int
  }

  const KeyQuit: byte := CtrlKey('q' as int)
  const KeySave: byte := CtrlKey('s' as int)
  const KeyCensor: byte := CtrlKey('c' as int)

  /** A key that the dispatch treats as text. */
  predicate IsTextKey(c: byte) {
    c != CR && c != DEL && c != KeyQuit && c != KeySave && c != KeyCensor
  }

  /** `pt_add_char`. */
  function AddChar(st: State, c: byte): (r: State)
    ensures r.content.data == (if Live(st) && c != NUL then st.content.data + [c] else st.content.data)
    ensures Live(st) ==> Live(r)
    ensures r == st.(content := r.content)
  {
    st.(content := AppendChar(st.content, c))
  }

  /** `pt_delete_char`. */
  function DeleteLast(st: State): (r: State)
    ensures |st.content.data| > 0 ==> r.content.data == st.content.data[..|st.content.data| - 1]
    ensures st.content.data == [] ==> r == st
    ensures Live(st) ==> Live(r)
    ensures r == st.(content := r.content)
  {
    st.(content := DeleteChar(st.content))
  }

  /** `pt_process_key_press` after the key has been read. */
  function ProcessKey(st: State, c: byte): (r: Outcome)
    ensures c == CR ==>
              && r.Continue?
              && r.st.content.data == (if Live(st) then st.content.data + [NL] else st.content.data)
    ensures c == DEL ==>
              && r.Continue?
              && r.st.content.data == (if st.content.data == [] then [] else st.content.data[..|st.content.data| - 1])
    ensures c == 0x11 <==> r.Quit?
    ensures c == 0x13 <==> r.Save?
    ensures c == 0x13 ==> r.st == st
    ensures c == 0x03 ==> r == Continue(st.(censored := !st.censored))
    ensures IsTextKey(c) ==>
              && r.Continue?
              && r.st.content.data == (if Live(st) && c != NUL then st.content.data + [c] else st.content.data)
    ensures !r.Quit? ==> r.st.rows == st.rows && r.st.cols == st.cols && r.st.filename == st.filename
    ensures !r.Quit? && c != 0x03 ==> r.st.censored == st.censored
    ensures !r.Quit? && Live(st) ==> Live(r.st)
  {
    if c == CR then Continue(AddChar(st, NL))
    else if c == DEL then Continue(DeleteLast(st))
    else if c == KeyQuit then Quit
    else if c == KeySave then Save(st)
    else if c == KeyCensor then Continue(st.(censored := !st.censored))
    else Continue(AddChar(st, c))
  }

  /** The main loop over a sequence of keys: it stops at the first Ctrl-Q;
      a save leaves the state as it was. */
  function Run(st: State, keys: seq<byte>): Outcome
    decreases |keys|
  {
    if keys == [] then Continue(st)
    else
      match ProcessKey(st, keys[0])
      case Quit => Quit
      case Continue(next) => Run(next, keys[1..])
      case Save(next) => Run(next, keys[1..])
  }

  /** Typing text keys (none of them NUL) into a live editor appends exactly
      those bytes to the content and changes nothing else. */
  lemma {:induction false} TypingAppends(st: State, keys: seq<byte>)
    requires Live(st)
    requires forall k :: 0 <= k < |keys| ==> IsTextKey(keys[k]) && keys[k] != NUL
    ensures Run(st, keys).Continue?
    ensures Run(st, keys).st.content.data == st.content.data + keys
    ensures Run(st, keys).st.censored == st.censored
    ensures Live(Run(st, keys).st)
    decreases |keys|
  {
    if keys == [] {
      assert st.content.data + keys == st.content.data;
    } else {
      var next := ProcessKey(st, keys[0]).st;
      TypingAppends(next, keys[1..]);
      assert st.content.data + [keys[0]] + keys[1..] == st.content.data + keys;
    }
  }

  /** A backspace removes the byte the previous text key added. */
  lemma BackspaceUndoesTyping(st: State, c: byte)
    requires Live(st) && IsTextKey(c) && c != NUL
    ensures Run(st, [c, DEL]).Continue?
    ensures Run(st, [c, DEL]).st.content.data == st.content.data
  {
    var typed := ProcessKey(st, c).st;
    assert typed.content.data == st.content.data + [c];
    assert [c, DEL][1..] == [DEL];
    assert Run(st, [c, DEL]) == Run(typed, [DEL]);
    var erased := ProcessKey(typed, DEL).st;
    assert [DEL][1..] == [];
    assert Run(typed, [DEL]) == Run(erased, []) == Continue(erased);
    assert (st.content.data + [c])[..|st.content.data|] == st.content.data;
  }

  /** Ctrl-C twice gives back the state it started from. */
  lemma CensorToggleTwice(st: State)
    ensures Run(st, [KeyCensor, KeyCensor]) == Continue(st)
  {
    var flipped := st.(censored := !st.censored);
    assert [KeyCensor, KeyCensor][1..] == [KeyCensor] && [KeyCensor][1..] == [];
    assert Run(st, [KeyCensor, KeyCensor]) == Run(flipped, [KeyCensor]);
    assert Run(flipped, [KeyCensor]) == Run(flipped.(censored := st.censored), []);
    assert flipped.(censored := st.censored) == st;
  }

  /** The three control keys are the bytes 0x11, 0x13 and 0x03. */
  lemma ControlKeyCodes()
    ensures KeyQuit == 0x11 && KeySave == 0x13 && KeyCensor == 0x03
  {
  }

  /** `pt_move_cursor`: CUP (section 8.3.21 of ECMA-48) with the row and
      column in decimal, and nothing at all when either is 0. */
  function MoveCursor(row: u16, col: u16): (r: seq<byte>)
    ensures row == 0 || col == 0 <==> r == []
  {
    if row >= 1 && col >= 1 then
      [ESC, LBRACKET] + Decimal(row) + [SEMI] + Decimal(col) + ['H' as int]
    else []
  }

  predicate AllDigits(s: seq<byte>) {
    forall k :: 0 <= k < |s| ==> IsDigit(s[k])
  }

  /** Reads a CUP sequence back: `ESC [` digits `;` digits `H`. */
  function ParseCursorMove(s: seq<byte>): Option<(nat, nat)> {
    if |s| >= 6 && s[0] == ESC && s[1] == LBRACKET && s[|s| - 1] == 'H' as int then
      var body := s[2..|s| - 1];
      match FindByte(body, 0, SEMI)
      case None => None
      case Some(k) =>
        var a, b := body[..k], body[k + 1..];
        if a != [] && b != [] && AllDigits(a) && AllDigits(b) then
          Some((DecimalValue(a), DecimalValue(b)))
        else None
    else None
  }

  /** The first `;` after a run of digits is the one right after it. */
  lemma SemicolonAfterDigits(a: seq<byte>, b: seq<byte>)
    requires AllDigits(a)
    ensures FindByte(a + [SEMI] + b, 0, SEMI) == Some(|a|)
  {
    var body := a + [SEMI] + b;
    assert body[|a|] == SEMI;
    assert forall k :: 0 <= k < |a| ==> body[k] == a[k];
  }

  /** A well-shaped CUP sequence parses to the numbers its digits denote. */
  lemma ParseCursorMoveOf(a: seq<byte>, b: seq<byte>)
    requires a != [] && b != [] && AllDigits(a) && AllDigits(b)
    ensures ParseCursorMove([ESC, LBRACKET] + a + [SEMI] + b + ['H' as int])
              == Some((DecimalValue(a), DecimalValue(b)))
  {
    var body := a + [SEMI] + b;
    CupFrame(a, b);
    SemicolonAfterDigits(a, b);
    SemicolonSplit(a, b);
  }

  /** The parts of a CUP sequence around its parameter bytes. */
  lemma CupFrame(a: seq<byte>, b: seq<byte>)
    ensures var s := [ESC, LBRACKET] + a + [SEMI] + b + ['H' as int];
            && |s| == |a| + |b| + 4
            && s[0] == ESC && s[1] == LBRACKET && s[|s| - 1] == 'H' as int
            && s[2..|s| - 1] == a + [SEMI] + b
  {
    var body := a + [SEMI] + b;
    var s := [ESC, LBRACKET] + a + [SEMI] + b + ['H' as int];
    assert s == [ESC, LBRACKET] + body + ['H' as int];
  }

  /** Sequence algebra: the two parameter lists on either side of the `;`. */
  lemma SemicolonSplit(a: seq<byte>, b: seq<byte>)
    ensures (a + [SEMI] + b)[..|a|] == a && (a + [SEMI] + b)[|a| + 1..] == b
  {
  }

  /** The cursor sequence names the row and column it was built from. */
  lemma MoveCursorRoundTrip(row: u16, col: u16)
    requires row >= 1 && col >= 1
    ensures ParseCursorMove(MoveCursor(row, col)) == Some((row as nat, col as nat))
  {
    ParseCursorMoveOf(Decimal(row), Decimal(col));
    DecimalRoundTrip(row);
    DecimalRoundTrip(col);
  }

  /** The skipper takes a cursor sequence whole, whatever follows it: digits
      and `;` are not CSI final bytes. */
  lemma MoveCursorIsOneEscape(row: u16, col: u16, rest: seq<byte>)
    requires row >= 1 && col >= 1
    ensures EscapeLength(MoveCursor(row, col) + rest) == |MoveCursor(row, col)|
  {
    var params := Decimal(row) + [SEMI] + Decimal(col);
    forall k | 0 <= k < |params|
      ensures !IsCsiFinal(params[k])
    {
      if k < |Decimal(row)| {
        assert params[k] == Decimal(row)[k];
      } else if k > |Decimal(row)| {
        assert params[k] == Decimal(col)[k - |Decimal(row)| - 1];
      }
    }
    CsiLength(params, 'H' as int, rest);
    assert [ESC, LBRACKET] + params + ['H' as int] == MoveCursor(row, col);
  }
}

=== FILE: escape.dfy ===
/** The escape-sequence skipper of render.c (`pt_skip_escape_sequence`) and the
    token stream it induces. The recogniser is deliberately looser than
    ECMA-48 section 5.4: a CSI (`ESC [`) ends only at the first `m`, `H` or
    `J`; an OSC (`ESC ]`) ends after a BEL or after `ESC \`; any other escape
    is the ESC and the byte after it; a sequence left open runs to the end of
    the input. The skipper takes the input from the ESC onwards and, like the
    C pointer it returns, reports how far the sequence reaches. */
module Escape {
  import opened Bytes

  predicate IsCsiFinal(b: byte) {
    b == 'm' as int || b == 'H' as int || b == 'J' as int
  }

  /** An OSC terminator starts at `k`: BEL, or ESC followed by a backslash. */
  predicate OscEndsAt(s: seq<byte>, k: nat)
    requires k < |s|
  {
    s[k] == BEL || (s[k] == ESC && k + 1 < |s| && s[k + 1] == BACKSLASH)
  }

  /** The CSI loop: the first index at or after `k` holding a final byte. */
  function CsiScan(s: seq<byte>, k: nat): (e: nat)
    requires k <= |s|
    ensures k <= e <= |s|
    ensures forall j :: k <= j < e ==> !IsCsiFinal(s[j])
    ensures e < |s| ==> IsCsiFinal(s[e])
    decreases |s| - k
  {
    if k == |s| || IsCsiFinal(s[k]) then k else CsiScan(s, k + 1)
  }

  /** The OSC loop: the first index at or after `k` where a terminator starts. */
  function OscScan(s: seq<byte>, k: nat): (e: nat)
    requires k <= |s|
    ensures k <= e <= |s|
    ensures forall j :: k <= j < e ==> !OscEndsAt(s, j)
    ensures e < |s| ==> OscEndsAt(s, e)
    decreases |s| - k
  {
    if k == |s| || OscEndsAt(s, k) then k else OscScan(s, k + 1)
  }

  /** `pt_skip_escape_sequence`: the number of bytes of `s` the escape
      sequence at its start occupies (0 when `s` does not start with ESC). */
  function EscapeLength(s: seq<byte>): (n: nat)
    ensures n <= |s|
    ensures n == 0 <==> (s == [] || s[0] != ESC)
    ensures |s| > 1 && s[0] == ESC && s[1] == LBRACKET ==>
              || (n == |s| && forall j :: 1 <= j < |s| ==> !IsCsiFinal(s[j]))
              || (2 < n && IsCsiFinal(s[n - 1]) && forall j :: 1 <= j < n - 1 ==> !IsCsiFinal(s[j]))
    ensures |s| > 1 && s[0] == ESC && s[1] == RBRACKET ==>
              || (n == |s| && forall j :: 1 <= j < |s| ==> !OscEndsAt(s, j))
              || (2 < n && s[n - 1] == BEL && forall j :: 1 <= j < n - 1 ==> !OscEndsAt(s, j))
              || (3 < n && s[n - 2] == ESC && s[n - 1] == BACKSLASH
                  && forall j :: 1 <= j < n - 2 ==> !OscEndsAt(s, j))
    ensures s != [] && s[0] == ESC && (|s| == 1 || (s[1] != LBRACKET && s[1] != RBRACKET)) ==>
              n == if |s| == 1 then 1 else 2
  {
    if s == [] || s[0] != ESC then 0
    else if |s| > 1 && s[1] == LBRACKET then
      var e := CsiScan(s, 1);
      if e < |s| then e + 1 else e
    else if |s| > 1 && s[1] == RBRACKET then
      var e := OscScan(s, 1);
      if e == |s| then e else if s[e] == BEL then e + 1 else e + 2
    else if |s| > 1 then 2
    else 1
  }

  /** A piece of the input as the wrapper walks it: a whole escape sequence,
      or one ordinary byte. */
  datatype Token = Escape(bytes: seq<byte>) | Plain(b: byte)

  function TokenBytes(t: Token): seq<byte> {
    match t
    case Escape(e) => e
    case Plain(b) => [b]
  }

  /** An escape token is self-delimiting: skipping it on its own covers
      exactly its bytes. */
  predicate WellToken(t: Token) {
    match t
    case Escape(e) => e != [] && e[0] == ESC && EscapeLength(e) == |e|
    case Plain(b) => b != ESC
  }

  /** `t` is what the wrapper's scan takes when it stands at offset `p` of
      `s`: the whole escape sequence the skipper finds there, or the one
      ordinary byte. */
  predicate ScanTakes(s: seq<byte>, p: nat, t: Token) {
    p <= |s| && TakesFront(s[p..], t)
  }

  /** `t` is what the scan takes at the start of `u`. */
  predicate TakesFront(u: seq<byte>, t: Token) {
    u != [] &&
    match t
    case Escape(e) => u[0] == ESC && e == u[..EscapeLength(u)]
    case Plain(b) => u[0] != ESC && b == u[0]
  }

  function Flatten(ts: seq<Token>): seq<byte>
    decreases |ts|
  {
    if ts == [] then [] else TokenBytes(ts[0]) + Flatten(ts[1..])
  }

  /** The bytes of the ordinary tokens: what occupies columns on screen. */
  function PlainBytes(ts: seq<Token>): seq<byte>
    decreases |ts|
  {
    if ts == [] then []
    else (match ts[0] case Plain(b) => [b] case Escape(_) => []) + PlainBytes(ts[1..])
  }

  function Plains(x: seq<byte>): (ts: seq<Token>)
    ensures |ts| == |x|
    ensures forall k :: 0 <= k < |x| ==> ts[k] == Plain(x[k])
  {
    seq(|x|, k requires 0 <= k < |x| => Plain(x[k]))
  }

  /** A sequence cut at the end of its leading escape sequence still holds
      the same sequence. */
  lemma EscapeLengthOfToken(s: seq<byte>)
    requires s != [] && s[0] == ESC
    ensures EscapeLength(s[..EscapeLength(s)]) == EscapeLength(s)
  {
    var n := EscapeLength(s);
    var t := s[..n];
    var m := EscapeLength(t);
    if |s| > 1 && s[1] == LBRACKET {
      if n > 1 {
        assert t[1] == LBRACKET;
        assert forall j :: 1 <= j < n ==> t[j] == s[j];
      }
    } else if |s| > 1 && s[1] == RBRACKET {
      if n > 1 {
        assert t[1] == RBRACKET;
        assert forall j :: 1 <= j < n - 1 ==> (OscEndsAt(t, j) <==> OscEndsAt(s, j));
      }
    }
  }

  /** The wrapper's scan of `s`: at an ESC take the whole escape sequence,
      otherwise take one byte. */
  function Tokenize(s: seq<byte>): (ts: seq<Token>)
    ensures Flatten(ts) == s
    decreases |s|
  {
    if s == [] then []
    else if s[0] == ESC then
      var n := EscapeLength(s);
      EscapeLengthOfToken(s);
      var rest := Tokenize(s[n..]);
      FlattenCons(Escape(s[..n]), rest);
      assert s == s[..n] + s[n..];
      [Escape(s[..n])] + rest
    else
      var rest := Tokenize(s[1..]);
      FlattenCons(Plain(s[0]), rest);
      assert s == [s[0]] + s[1..];
      [Plain(s[0])] + rest
  }

  /** Every token of the scan is whole: the token at index `k` is exactly
      what the scan takes at the offset where the tokens before it end (the
      whole escape sequence the skipper finds there, or one ordinary byte),
      and an escape token is self-delimiting on its own. */
  lemma {:induction false} TokensAreWhole(s: seq<byte>)
    ensures forall k :: 0 <= k < |Tokenize(s)| ==> WellToken(Tokenize(s)[k])
    ensures forall k :: 0 <= k < |Tokenize(s)| ==>
              ScanTakes(s, |Flatten(Tokenize(s)[..k])|, Tokenize(s)[k])
    decreases |s|
  {
    if s != [] {
      var ts := Tokenize(s);
      var n := if s[0] == ESC then EscapeLength(s) else 1;
      var t0 := if s[0] == ESC then Escape(s[..n]) else Plain(s[0]);
      var rest := Tokenize(s[n..]);
      if s[0] == ESC {
        EscapeLengthOfToken(s);
      }
      TokensAreWhole(s[n..]);
      assert ts == [t0] + rest;
      assert s[0..] == s;
      assert TakesFront(s, t0);
      OffsetsCons(s, n, t0, rest);
    }
  }

  /** The inductive step of `TokensAreWhole`: one token taken at the front. */
  lemma OffsetsCons(s: seq<byte>, n: nat, t0: Token, rest: seq<Token>)
    requires n == |TokenBytes(t0)| <= |s| && ScanTakes(s, 0, t0)
    requires forall k :: 0 <= k < |rest| ==> ScanTakes(s[n..], |Flatten(rest[..k])|, rest[k])
    ensures forall k :: 0 <= k < |[t0] + rest| ==>
              ScanTakes(s, |Flatten(([t0] + rest)[..k])|, ([t0] + rest)[k])
  {
    var ts := [t0] + rest;
    forall k | 0 <= k < |ts|
      ensures ScanTakes(s, |Flatten(ts[..k])|, ts[k])
    {
      if k == 0 {
        assert ts[..k] == [];
      } else {
        FrontOffset(t0, rest, k);
        ScanTakesShift(s, n, |Flatten(rest[..k - 1])|, rest[k - 1]);
      }
    }
  }

  /** Sequence algebra: the bytes before token `k` of `[t0] + rest`. */
  lemma FrontOffset(t0: Token, rest: seq<Token>, k: nat)
    requires 0 < k <= |rest|
    ensures |Flatten(([t0] + rest)[..k])| == |TokenBytes(t0)| + |Flatten(rest[..k - 1])|
    ensures ([t0] + rest)[k] == rest[k - 1]
  {
    assert ([t0] + rest)[..k] == [t0] + rest[..k - 1];
    FlattenCons(t0, rest[..k - 1]);
  }

  /** What the scan takes at offset `p` of a suffix it takes at offset
      `n + p` of the whole input. */
  lemma ScanTakesShift(s: seq<byte>, n: nat, p: nat, t: Token)
    requires n <= |s| && ScanTakes(s[n..], p, t)
    ensures ScanTakes(s, n + p, t)
  {
    assert s[n..][p..] == s[n + p..];
  }

  lemma FlattenCons(t: Token, ts: seq<Token>)
    ensures Flatten([t] + ts) == TokenBytes(t) + Flatten(ts)
  {
    assert ([t] + ts)[0] == t;
    assert ([t] + ts)[1..] == ts;
  }

  /** An ordinary first byte is one token on its own. */
  lemma TokenizeCons(b: byte, t: seq<byte>)
    requires b != ESC
    ensures Tokenize([b] + t) == [Plain(b)] + Tokenize(t)
  {
    assert ([b] + t)[1..] == t;
  }

  /** What the wrapper counts as visible in `s`. */
  function Visible(s: seq<byte>): seq<byte> {
    PlainBytes(Tokenize(s))
  }

  lemma {:induction false} FlattenAppend(a: seq<Token>, b: seq<Token>)
    ensures Flatten(a + b) == Flatten(a) + Flatten(b)
    decreases |a|
  {
    if a == [] {
      assert a + b == b;
    } else {
      assert (a + b)[0] == a[0];
      assert (a + b)[1..] == a[1..] + b;
      FlattenAppend(a[1..], b);
    }
  }

  lemma {:induction false} PlainBytesAppend(a: seq<Token>, b: seq<Token>)
    ensures PlainBytes(a + b) == PlainBytes(a) + PlainBytes(b)
    decreases |a|
  {
    if a == [] {
      assert a + b == b;
    } else {
      assert (a + b)[0] == a[0];
      assert (a + b)[1..] == a[1..] + b;
      PlainBytesAppend(a[1..], b);
    }
  }

  lemma {:induction false} PlainBytesOfPlains(x: seq<byte>)
    ensures PlainBytes(Plains(x)) == x
    decreases |x|
  {
    if x != [] {
      assert Plains(x)[1..] == Plains(x[1..]);
      PlainBytesOfPlains(x[1..]);
    }
  }

  /** Text without ESC is scanned one ordinary byte at a time. */
  lemma {:induction false} TokenizeEscFree(x: seq<byte>, rest: seq<byte>)
    requires forall k :: 0 <= k < |x| ==> x[k] != ESC
    ensures Tokenize(x + rest) == Plains(x) + Tokenize(rest)
    decreases |x|
  {
    if x == [] {
      assert x + rest == rest;
      assert Plains(x) + Tokenize(rest) == Tokenize(rest);
    } else {
      TokenizeEscFree(x[1..], rest);
      TokenizeEscFreeStep(x[0], x[1..], rest);
      assert x == [x[0]] + x[1..];
    }
  }

  /** The inductive step: one more ordinary byte in front. */
  lemma TokenizeEscFreeStep(b: byte, y: seq<byte>, rest: seq<byte>)
    requires b != ESC
    requires Tokenize(y + rest) == Plains(y) + Tokenize(rest)
    ensures Tokenize([b] + y + rest) == Plains([b] + y) + Tokenize(rest)
  {
    ConcatAssoc([b], y, rest);
    TokenizeCons(b, y + rest);
    PlainsCons(b, y);
    ConcatAssoc([Plain(b)], Plains(y), Tokenize(rest));
  }

  lemma PlainsCons(b: byte, y: seq<byte>)
    ensures Plains([b] + y) == [Plain(b)] + Plains(y)
  {
  }

  /** A CSI whose parameter bytes hold no final byte is skipped up to and
      including its final byte, whatever follows. */
  lemma CsiLength(params: seq<byte>, final: byte, rest: seq<byte>)
    requires forall k :: 0 <= k < |params| ==> !IsCsiFinal(params[k])
    requires IsCsiFinal(final)
    ensures EscapeLength([ESC, LBRACKET] + params + [final] + rest) == |params| + 3
  {
    var s := [ESC, LBRACKET] + params + [final] + rest;
    assert s[1] == LBRACKET && s[|params| + 2] == final;
    assert forall j :: 2 <= j < |params| + 2 ==> s[j] == params[j - 2];
  }

  /** An OSC whose body holds no BEL and no ESC is skipped up to and
      including its BEL, whatever follows. */
  lemma OscLength(body: seq<byte>, rest: seq<byte>)
    requires forall k :: 0 <= k < |body| ==> body[k] != BEL && body[k] != ESC
    ensures EscapeLength([ESC, RBRACKET] + body + [BEL] + rest) == |body| + 3
  {
    var s := [ESC, RBRACKET] + body + [BEL] + rest;
    assert s[1] == RBRACKET && s[|body| + 2] == BEL;
    assert forall j :: 2 <= j < |body| + 2 ==> s[j] == body[j - 2];
    assert forall j :: 1 <= j < |body| + 2 ==> !OscEndsAt(s, j);
    assert OscEndsAt(s, |body| + 2);
    assert OscScan(s, 1) == |body| + 2;
  }

  /** A complete escape sequence at the front becomes one token. */
  lemma TokenizeEscapeFirst(e: seq<byte>, rest: seq<byte>)
    requires e != [] && e[0] == ESC
    requires EscapeLength(e + rest) == |e|
    ensures Tokenize(e + rest) == [Escape(e)] + Tokenize(rest)
  {
    assert (e + rest)[..|e|] == e;
    assert (e + rest)[|e|..] == rest;
  }
}

=== FILE: format.dfy ===
/** The inline formatter of render.c (`pt_format_string` and its three
    recognisers). One left-to-right scan rewrites lightweight markup into
    terminal control sequences:
    - a heading (`#`-run, space, text, newline at a line start) becomes the
      kitty text-sizing OSC 66 sequence followed by newlines;
    - `**text**` becomes SGR 1 (bold, section 8.3.117 of ECMA-48) around the
      text, closed by SGR 0;
    - `[[target|label]]` becomes SGR 4 (underline) around the label.
    Each recogniser maps the input and a position to the bytes it emits and
    the position where the scan resumes. A generated sequence that does not
    fit the 128-byte `snprintf` buffer is dropped, but its source text is
    consumed all the same. */
module Format {
  import opened Bytes
  import opened Escape

  const MaxHeaderSize: nat := 4
  /** The size of the `ctrl` buffer every recogniser prints into. */
  const CtrlSize: nat := 128
  /** `SIZE_MAX + 1`: the modulus of `size_t` arithmetic. */
  const SizeModulus: nat := 0x1_0000_0000_0000_0000

  const BoldOn: seq<byte> := [ESC, LBRACKET, '1' as int, 'm' as int]
  const UnderlineOn: seq<byte> := [ESC, LBRACKET, '4' as int, 'm' as int]
  const StyleOff: seq<byte> := [ESC, LBRACKET, '0' as int, 'm' as int]

  /** One recogniser's effect, or a scan that never returns. */
  datatype Step = Step(out: seq<byte>, next: nat) | Hang

  /** The formatted text, or no result because the formatter never returns. */
  datatype Formatted = Done(out: seq<byte>) | Diverges

  /** `snprintf(ctrl, 128, ...)` followed by the `n > 0 && n < sizeof(ctrl)`
      test: a sequence is kept only when it fits with its terminator. */
  function Fit(ctrl: seq<byte>): seq<byte> {
    if 0 < |ctrl| < CtrlSize then ctrl else []
  }

  /** `ESC ] 66 ; s = <level> ; <text> BEL`. */
  function OscHeading(level: nat, text: seq<byte>): seq<byte> {
    [ESC, RBRACKET, '6' as int, '6' as int, SEMI, 's' as int, '=' as int]
      + Decimal(level) + [SEMI] + text + [BEL]
  }

  predicate AtLineStart(s: seq<byte>, i: nat)
    requires i <= |s|
  {
    i == 0 || s[i - 1] == NL
  }

  predicate HeadingAt(s: seq<byte>, i: nat) {
    i < |s| && s[i] == HASH && AtLineStart(s, i)
  }

  /** A two-byte marker `b b` starts at `i`. */
  predicate PairAt(s: seq<byte>, i: nat, b: byte) {
    i + 1 < |s| && s[i] == b && s[i + 1] == b
  }

  predicate BoldAt(s: seq<byte>, i: nat) {
    PairAt(s, i, STAR)
  }

  predicate LinkAt(s: seq<byte>, i: nat) {
    PairAt(s, i, LBRACKET)
  }

  /** `strspn(input, "#")`: the length of the `#`-run at `i`. */
  function HashRun(s: seq<byte>, i: nat): (n: nat)
    requires i <= |s|
    ensures i + n <= |s|
    ensures forall k :: i <= k < i + n ==> s[k] == HASH
    ensures i + n == |s| || s[i + n] != HASH
    decreases |s| - i
  {
    if i == |s| || s[i] != HASH then 0 else 1 + HashRun(s, i + 1)
  }

  /** `strstr` for a doubled byte: the first `b b` at or after `from`. */
  function FindPair(s: seq<byte>, from: nat, b: byte): (r: Option<nat>)
    requires from <= |s|
    ensures r.Some? ==> from <= r.value && PairAt(s, r.value, b)
    ensures r.Some? ==> forall k :: from <= k < r.value ==> !PairAt(s, k, b)
    ensures r.None? ==> forall k :: from <= k < |s| ==> !PairAt(s, k, b)
    decreases |s| - from
  {
    if from == |s| then None
    else if PairAt(s, from, b) then Some(from)
    else FindPair(s, from + 1, b)
  }

  /** Where a wikilink's shown text starts: just after the last `|` of the span
      `[lo, hi)`, or at `lo` when there is none. */
  function LabelStart(s: seq<byte>, lo: nat, hi: nat): (r: nat)
    requires lo <= hi <= |s|
    ensures lo <= r <= hi
    ensures forall k :: r <= k < hi ==> s[k] != PIPE
    ensures r > lo ==> s[r - 1] == PIPE
    ensures r == lo ==> forall k :: lo <= k < hi ==> s[k] != PIPE
  {
    match LastIndex(s, lo, hi, PIPE)
    case Some(p) => p + 1
    case None => lo
  }

  /** The pipe loop of the wikilink recogniser: the last `b` in `[lo, hi)`. */
  function LastIndex(s: seq<byte>, lo: nat, hi: nat, b: byte): (r: Option<nat>)
    requires lo <= hi <= |s|
    ensures r.Some? ==> lo <= r.value < hi && s[r.value] == b
    ensures r.Some? ==> forall k :: r.value < k < hi ==> s[k] != b
    ensures r.None? ==> forall k :: lo <= k < hi ==> s[k] != b
    decreases hi - lo
  {
    if lo == hi then None
    else if s[hi - 1] == b then Some(hi - 1)
    else LastIndex(s, lo, hi - 1, b)
  }

  /** The heading's newline loop `for (size_t k = 0; k <= level - 1; k++)`.
      `level - 1` is computed in `size_t`: for level 0 it wraps to SIZE_MAX,
      every `k` satisfies `k <= SIZE_MAX`, and the loop never ends. */
  function NewlineLoop(level: nat): (r: Option<seq<byte>>)
    requires level < SizeModulus
    ensures r.None? <==> level == 0
    ensures r.Some? ==> r.value == Repeat(NL, level)
  {
    var bound := (level - 1) % SizeModulus;
    if bound == SizeModulus - 1 then None else Some(Repeat(NL, bound + 1))
  }

  /** The heading shape: the `#`-run is followed by a space, and some newline
      follows. */
  predicate HeadingValid(s: seq<byte>, i: nat)
    requires i <= |s|
  {
    var n := HashRun(s, i);
    i + n < |s| && s[i + n] == SPACE && FindByte(s, i, NL).Some?
  }

  /** `pt_format_heading`, called on a `#`. A malformed heading emits that one
      `#` and moves on by one byte. A well-formed one emits OSC 66 with level
      `4 - min(n, 4)` and the text up to the first newline, then `level`
      newlines, and resumes after that newline; with four or more `#` the
      level is 0 and the newline loop never ends. */
  function Heading(s: seq<byte>, i: nat): (r: Step)
    requires i < |s| && s[i] == HASH
    ensures r.Step? ==> i < r.next <= |s|
    ensures !HeadingValid(s, i) ==> r == Step([HASH], i + 1)
    ensures HeadingValid(s, i) ==> (r.Hang? <==> HashRun(s, i) >= MaxHeaderSize)
    ensures HeadingValid(s, i) && r.Step? ==>
              var n := HashRun(s, i);
              var nl := FindByte(s, i, NL).value;
              && i + n < nl
              && r.next == nl + 1
              && r.out == Fit(OscHeading(MaxHeaderSize - n, s[i + n + 1..nl])) + Repeat(NL, MaxHeaderSize - n)
  {
    var raw := HashRun(s, i);
    var nl := FindByte(s, i, NL);
    if i + raw == |s| || s[i + raw] != SPACE || nl.None? then
      Step([s[i]], i + 1)
    else
      var count := if raw > MaxHeaderSize then MaxHeaderSize else raw;
      var textStart := i + raw + 1;
      assert s[i + raw] != NL;
      assert textStart <= nl.value;
      var text := s[textStart..nl.value];
      var level := MaxHeaderSize - count;
      var ctrl := Fit(OscHeading(level, text));
      match NewlineLoop(level)
      case None => Hang
      case Some(newlines) => Step(ctrl + newlines, nl.value + 1)
  }

  /** `pt_format_bold`, called on `**`. Without a closing `**` it emits the
      two stars and moves on by two; otherwise it emits SGR 1, the enclosed
      text verbatim and SGR 0 (nothing when that does not fit), and resumes
      after the closing marker. */
  function Bold(s: seq<byte>, i: nat): (r: Step)
    requires BoldAt(s, i)
    ensures r.Step? && i < r.next <= |s|
    ensures FindPair(s, i + 2, STAR).None? ==> r == Step([STAR, STAR], i + 2)
    ensures FindPair(s, i + 2, STAR).Some? ==>
              var j := FindPair(s, i + 2, STAR).value;
              && r.next == j + 2
              && (|s[i + 2..j]| + 8 < CtrlSize ==> r.out == BoldOn + s[i + 2..j] + StyleOff)
              && (|s[i + 2..j]| + 8 >= CtrlSize ==> r.out == [])
  {
    var close := FindPair(s, i + 2, STAR);
    if close.None? then
      Step([STAR, STAR], i + 2)
    else
      Step(Fit(BoldOn + s[i + 2..close.value] + StyleOff), close.value + 2)
  }

  /** `pt_format_wikilink`, called on `[[`. Without a closing `]]` it emits
      `[[` and moves on by two; otherwise it emits SGR 4, the text after the
      last `|` of the span (the whole span when there is none) and SGR 0
      (nothing when that does not fit), and resumes after `]]`. */
  function Wikilink(s: seq<byte>, i: nat): (r: Step)
    requires LinkAt(s, i)
    ensures r.Step? && i < r.next <= |s|
    ensures FindPair(s, i + 2, RBRACKET).None? ==> r == Step([LBRACKET, LBRACKET], i + 2)
    ensures FindPair(s, i + 2, RBRACKET).Some? ==>
              var j := FindPair(s, i + 2, RBRACKET).value;
              var shown := s[LabelStart(s, i + 2, j)..j];
              && r.next == j + 2
              && (|shown| + 8 < CtrlSize ==> r.out == UnderlineOn + shown + StyleOff)
              && (|shown| + 8 >= CtrlSize ==> r.out == [])
  {
    var close := FindPair(s, i + 2, RBRACKET);
    if close.None? then
      Step([LBRACKET, LBRACKET], i + 2)
    else
      var start := LabelStart(s, i + 2, close.value);
      Step(Fit(UnderlineOn + s[start..close.value] + StyleOff), close.value + 2)
  }

  /** One turn of the scan loop of `pt_format_string`: heading before bold
      before wikilink, otherwise the byte is copied. */
  function FormatStep(s: seq<byte>, i: nat): (r: Step)
    requires i < |s|
    ensures r.Step? ==> i < r.next <= |s|
    ensures r.Hang? ==> DeepHeadingAt(s, i)
    ensures HeadingAt(s, i) ==> r == Heading(s, i)
    ensures !HeadingAt(s, i) && BoldAt(s, i) ==> r == Bold(s, i)
    ensures !HeadingAt(s, i) && !BoldAt(s, i) && LinkAt(s, i) ==> r == Wikilink(s, i)
    ensures !HeadingAt(s, i) && !BoldAt(s, i) && !LinkAt(s, i) ==> r == Step([s[i]], i + 1)
  {
    if HeadingAt(s, i) then Heading(s, i)
    else if BoldAt(s, i) then Bold(s, i)
    else if LinkAt(s, i) then Wikilink(s, i)
    else Step([s[i]], i + 1)
  }

  /** The scan of `pt_format_string` from position `i` to the end. */
  function FormatFrom(s: seq<byte>, i: nat): Formatted
    requires i <= |s|
    decreases |s| - i
  {
    if i == |s| then Done([])
    else
      match FormatStep(s, i)
      case Hang => Diverges
      case Step(out, next) =>
        match FormatFrom(s, next)
        case Diverges => Diverges
        case Done(rest) => Done(out + rest)
  }

  /** A well-formed heading of `MaxHeaderSize` or more `#` starts at `k`: the
      one construct whose newline loop never ends. */
  predicate DeepHeadingAt(s: seq<byte>, k: nat) {
    HeadingAt(s, k) && HeadingValid(s, k) && HashRun(s, k) >= MaxHeaderSize
  }

  /** `pt_format_string`. It hangs only on a deep heading; text without one
      is formatted to completion. */
  function FormatString(s: seq<byte>): (r: Formatted)
    ensures r.Diverges? ==> exists k :: 0 <= k < |s| && DeepHeadingAt(s, k)
  {
    if forall k :: 0 <= k < |s| ==> !DeepHeadingAt(s, k) then
      NoDeepHeadingDone(s, 0);
      FormatFrom(s, 0)
    else
      FormatFrom(s, 0)
  }

  /** The scan from `i` returns when no deep heading starts at or after `i`,
      whatever bold, wikilink or shallow heading markup the text holds. */
  lemma {:induction false} NoDeepHeadingDone(s: seq<byte>, i: nat)
    requires i <= |s|
    requires forall k :: i <= k < |s| ==> !DeepHeadingAt(s, k)
    ensures FormatFrom(s, i).Done?
    decreases |s| - i
  {
    if i < |s| {
      assert !DeepHeadingAt(s, i);
      var next := FormatStep(s, i).next;
      NoDeepHeadingDone(s, next);
    }
  }

  /** No markup starts at or after position `i`. */
  predicate NoMarkupFrom(s: seq<byte>, i: nat) {
    forall k :: i <= k < |s| ==> !HeadingAt(s, k) && !BoldAt(s, k) && !LinkAt(s, k)
  }

  /** Text with no line-start `#`, no `**` and no `[[` comes out of the
      formatter unchanged. */
  lemma FormatPlainText(s: seq<byte>)
    requires NoMarkupFrom(s, 0)
    ensures FormatString(s) == Done(s)
  {
    FormatFromPlain(s, 0);
  }

  /** From a position past all markup, the scan copies the rest verbatim. */
  lemma {:induction false} FormatFromPlain(s: seq<byte>, i: nat)
    requires i <= |s|
    requires NoMarkupFrom(s, i)
    ensures FormatFrom(s, i) == Done(s[i..])
    decreases |s| - i
  {
    if i < |s| {
      assert !HeadingAt(s, i) && !BoldAt(s, i) && !LinkAt(s, i);
      FormatFromPlain(s, i + 1);
      assert s[i..] == [s[i]] + s[i + 1..];
    }
  }

  /** Every byte a recogniser emits is a NUL-free C string when the input is. */
  lemma StepNulFree(s: seq<byte>, i: nat)
    requires i < |s| && NulFree(s)
    ensures FormatStep(s, i).Step? ==> NulFree(FormatStep(s, i).out)
  {
    if HeadingAt(s, i) {
      HeadingNulFree(s, i);
    } else if BoldAt(s, i) {
      BoldNulFree(s, i);
    } else if LinkAt(s, i) {
      WikilinkNulFree(s, i);
    }
  }

  lemma HeadingNulFree(s: seq<byte>, i: nat)
    requires i < |s| && s[i] == HASH && NulFree(s)
    ensures Heading(s, i).Step? ==> NulFree(Heading(s, i).out)
  {
    if HeadingValid(s, i) && Heading(s, i).Step? {
      var n := HashRun(s, i);
      var nl := FindByte(s, i, NL).value;
      NulFreeSlice(s, i + n + 1, nl);
      HeadingOutNulFree(MaxHeaderSize - n, s[i + n + 1..nl]);
    }
  }

  lemma NulFreeSlice(s: seq<byte>, lo: nat, hi: nat)
    requires lo <= hi <= |s| && NulFree(s)
    ensures NulFree(s[lo..hi])
  {
  }

  /** What a well-formed heading emits is NUL-free when its text is. */
  lemma HeadingOutNulFree(level: nat, text: seq<byte>)
    requires NulFree(text)
    ensures NulFree(Fit(OscHeading(level, text)) + Repeat(NL, level))
  {
    assert NulFree(Decimal(level));
    assert NulFree(OscHeading(level, text));
  }

  lemma BoldNulFree(s: seq<byte>, i: nat)
    requires BoldAt(s, i) && NulFree(s)
    ensures NulFree(Bold(s, i).out)
  {
    var close := FindPair(s, i + 2, STAR);
    if close.Some? {
      assert NulFree(s[i + 2..close.value]);
    }
  }

  lemma WikilinkNulFree(s: seq<byte>, i: nat)
    requires LinkAt(s, i) && NulFree(s)
    ensures NulFree(Wikilink(s, i).out)
  {
    var close := FindPair(s, i + 2, RBRACKET);
    if close.Some? {
      var start := LabelStart(s, i + 2, close.value);
      assert NulFree(s[start..close.value]);
    }
  }

  /** The formatted text is again a NUL-free C string, so the buffer
      `pt_format_string` returns holds all of it. */
  lemma {:induction false} FormatFromNulFree(s: seq<byte>, i: nat)
    requires i <= |s| && NulFree(s)
    ensures FormatFrom(s, i).Done? ==> NulFree(FormatFrom(s, i).out)
    decreases |s| - i
  {
    if i < |s| {
      StepNulFree(s, i);
      var r := FormatStep(s, i);
      if r.Step? {
        FormatFromNulFree(s, r.next);
      }
    }
  }

  /** A well-formed heading of four or more `#` that the scan reaches, after
      text with no markup, makes the formatter loop forever. */
  lemma DeepHeadingDiverges(s: seq<byte>, i: nat)
    requires i < |s| && DeepHeadingAt(s, i)
    requires forall k :: 0 <= k < i ==> !HeadingAt(s, k) && !BoldAt(s, k) && !LinkAt(s, k)
    ensures FormatString(s) == Diverges
  {
    DivergesFrom(s, 0, i);
  }

  /** From any position before such a heading, the scan copies bytes up to
      it and then never returns. */
  lemma {:induction false} DivergesFrom(s: seq<byte>, j: nat, i: nat)
    requires j <= i < |s| && DeepHeadingAt(s, i)
    requires forall k :: j <= k < i ==> !HeadingAt(s, k) && !BoldAt(s, k) && !LinkAt(s, k)
    ensures FormatFrom(s, j) == Diverges
    decreases i - j
  {
    if j == i {
      assert FormatStep(s, i) == Hang;
    } else {
      assert FormatStep(s, j) == Step([s[j]], j + 1);
      DivergesFrom(s, j + 1, i);
    }
  }

  /** Each SGR marker the formatter emits is one whole escape sequence of
      four bytes to the skipper, whatever follows it. */
  lemma MarkersAreFourBytes(rest: seq<byte>)
    ensures EscapeLength(BoldOn + rest) == 4
    ensures EscapeLength(UnderlineOn + rest) == 4
    ensures EscapeLength(StyleOff + rest) == 4
  {
    CsiLength(['1' as int], 'm' as int, rest);
    assert [ESC, LBRACKET] + ['1' as int] + ['m' as int] + rest == BoldOn + rest;
    CsiLength(['4' as int], 'm' as int, rest);
    assert [ESC, LBRACKET] + ['4' as int] + ['m' as int] + rest == UnderlineOn + rest;
    CsiLength(['0' as int], 'm' as int, rest);
    assert [ESC, LBRACKET] + ['0' as int] + ['m' as int] + rest == StyleOff + rest;
  }

  /** A styled span as the wrapper walks it: the opening marker, one token
      per text byte, the closing marker. */
  lemma StyledSpanTokens(on: seq<byte>, x: seq<byte>)
    requires on == BoldOn || on == UnderlineOn
    requires forall k :: 0 <= k < |x| ==> x[k] != ESC
    ensures Tokenize(on + x + StyleOff) == [Escape(on)] + (Plains(x) + [Escape(StyleOff)])
  {
    MarkersAreFourBytes(x + StyleOff);
    MarkersAreFourBytes([]);
    assert on + x + StyleOff == on + (x + StyleOff);
    TokenizeEscapeFirst(on, x + StyleOff);
    TokenizeEscFree(x, StyleOff);
    assert StyleOff + [] == StyleOff;
    TokenizeEscapeFirst(StyleOff, []);
    assert [Escape(StyleOff)] + [] == [Escape(StyleOff)];
  }

  /** Bold and underline markers are zero-width to the wrapper: the visible
      bytes of a styled span are exactly the span's text. */
  lemma StyledSpanVisible(on: seq<byte>, x: seq<byte>)
    requires on == BoldOn || on == UnderlineOn
    requires forall k :: 0 <= k < |x| ==> x[k] != ESC
    ensures Visible(on + x + StyleOff) == x
  {
    StyledSpanTokens(on, x);
    PlainBytesAppend([Escape(on)], Plains(x) + [Escape(StyleOff)]);
    PlainBytesAppend(Plains(x), [Escape(StyleOff)]);
    PlainBytesOfPlains(x);
    assert PlainBytes([Escape(on)]) == [];
    assert PlainBytes([Escape(StyleOff)]) == [];
  }

  /** A heading's OSC 66 sequence is one zero-width token to the wrapper
      when its text holds no BEL and no ESC: the heading text takes no columns. */
  lemma HeadingSequenceInvisible(level: nat, text: seq<byte>, rest: seq<byte>)
    requires forall k :: 0 <= k < |text| ==> text[k] != BEL && text[k] != ESC
    ensures Tokenize(OscHeading(level, text) + rest) == [Escape(OscHeading(level, text))] + Tokenize(rest)
  {
    var body := ['6' as int, '6' as int, SEMI, 's' as int, '=' as int] + Decimal(level) + [SEMI] + text;
    assert OscHeading(level, text) == [ESC, RBRACKET] + body + [BEL];
    forall k | 0 <= k < |body|
      ensures body[k] != BEL && body[k] != ESC
    {
      if k >= 5 + |Decimal(level)| + 1 {
        assert body[k] == text[k - 5 - |Decimal(level)| - 1];
      } else if k >= 5 && k < 5 + |Decimal(level)| {
        assert body[k] == Decimal(level)[k - 5];
      }
    }
    OscLength(body, rest);
    assert [ESC, RBRACKET] + body + [BEL] + rest == OscHeading(level, text) + rest;
    TokenizeEscapeFirst(OscHeading(level, text), rest);
  }

  /** Text free of markup stays free of markup after any prefix: a `#` at
      its start is no heading, and no marker straddles the seam. */
  lemma NoMarkupShift(pre: seq<byte>, rest: seq<byte>)
    requires NoMarkupFrom(rest, 0)
    ensures NoMarkupFrom(pre + rest, |pre|)
  {
    var s := pre + rest;
    forall k | |pre| <= k < |s|
      ensures !HeadingAt(s, k) && !BoldAt(s, k) && !LinkAt(s, k)
    {
      var m := k - |pre|;
      assert s[k] == rest[m];
      assert !HeadingAt(rest, m) && !BoldAt(rest, m) && !LinkAt(rest, m);
      if k + 1 < |s| {
        assert s[k + 1] == rest[m + 1];
      }
      if m > 0 {
        assert s[k - 1] == rest[m - 1];
      }
    }
  }

  /** A closed bold span whose text holds no `*` and fits the buffer becomes
      bold-on, the text verbatim, bold-off; unmarked text after it is
      copied. */
  lemma BoldSpan(x: seq<byte>, rest: seq<byte>)
    requires forall k :: 0 <= k < |x| ==> x[k] != STAR
    requires |x| + 8 < CtrlSize
    requires NoMarkupFrom(rest, 0)
    ensures FormatString([STAR, STAR] + x + [STAR, STAR] + rest) == Done(BoldOn + x + StyleOff + rest)
  {
    var line := [STAR, STAR] + x + [STAR, STAR];
    var s := line + rest;
    var j := 2 + |x|;
    assert forall k :: 2 <= k < j ==> s[k] == x[k - 2];
    assert PairAt(s, j, STAR);
    assert FindPair(s, 2, STAR) == Some(j);
    assert s[2..j] == x;
    assert FormatStep(s, 0) == Step(BoldOn + x + StyleOff, j + 2);
    NoMarkupShift(line, rest);
    FormatLineThenPlain(line, rest, BoldOn + x + StyleOff);
  }

  /** A `**` with no closing `**` after it is copied literally. */
  lemma UnclosedBoldIsLiteral(x: seq<byte>)
    requires forall k :: 0 <= k < |x| ==> x[k] != STAR
    requires NoMarkupFrom(x, 0)
    ensures FormatString([STAR, STAR] + x) == Done([STAR, STAR] + x)
  {
    var s := [STAR, STAR] + x;
    assert forall k :: 2 <= k < |s| ==> s[k] == x[k - 2];
    assert FindPair(s, 2, STAR) == None;
    assert FormatStep(s, 0) == Step([STAR, STAR], 2);
    NoMarkupShift([STAR, STAR], x);
    FormatLineThenPlain([STAR, STAR], x, [STAR, STAR]);
  }

  /** A heading of one to three `#`, a space, a line of text and a newline
      becomes OSC 66 with level `4 - n` around the text, then `4 - n`
      newlines (the newline loop runs `level` times); unmarked text after
      the line is copied. */
  lemma HeadingLine(n: nat, x: seq<byte>, rest: seq<byte>)
    requires 1 <= n < MaxHeaderSize
    requires forall k :: 0 <= k < |x| ==> x[k] != NL
    requires |OscHeading(MaxHeaderSize - n, x)| < CtrlSize
    requires NoMarkupFrom(rest, 0)
    ensures FormatString(Repeat(HASH, n) + [SPACE] + x + [NL] + rest)
              == Done(OscHeading(MaxHeaderSize - n, x) + Repeat(NL, MaxHeaderSize - n) + rest)
  {
    var line := Repeat(HASH, n) + [SPACE] + x + [NL];
    HeadingLineStep(n, x, rest);
    NoMarkupShift(line, rest);
    FormatLineThenPlain(line, rest, OscHeading(MaxHeaderSize - n, x) + Repeat(NL, MaxHeaderSize - n));
  }

  /** When the first step of the scan consumes exactly `line`, and no markup
      follows, the result is that step's output followed by the rest
      verbatim. */
  lemma FormatLineThenPlain(line: seq<byte>, rest: seq<byte>, out: seq<byte>)
    requires line != [] && FormatStep(line + rest, 0) == Step(out, |line|)
    requires NoMarkupFrom(line + rest, |line|)
    ensures FormatString(line + rest) == Done(out + rest)
  {
    var s := line + rest;
    FormatFromPlain(s, |line|);
    assert s[|line|..] == rest;
    FormatFromStep(s, 0, out, |line|, rest);
  }

  /** One step of the scan followed by the scan of what is left. */
  lemma FormatFromStep(s: seq<byte>, i: nat, out: seq<byte>, next: nat, tail: seq<byte>)
    requires i < |s| && FormatStep(s, i) == Step(out, next)
    requires FormatFrom(s, next) == Done(tail)
    ensures FormatFrom(s, i) == Done(out + tail)
  {
  }

  /** The heading recogniser on such a line. */
  lemma HeadingLineStep(n: nat, x: seq<byte>, rest: seq<byte>)
    requires 1 <= n < MaxHeaderSize
    requires forall k :: 0 <= k < |x| ==> x[k] != NL
    requires |OscHeading(MaxHeaderSize - n, x)| < CtrlSize
    ensures var s := Repeat(HASH, n) + [SPACE] + x + [NL] + rest;
            FormatStep(s, 0)
              == Step(OscHeading(MaxHeaderSize - n, x) + Repeat(NL, MaxHeaderSize - n), n + 2 + |x|)
  {
    var s := Repeat(HASH, n) + [SPACE] + x + [NL] + rest;
    HeadingLineShape(n, x, rest);
    HeadingOnLine(s, n, n + 1 + |x|, x);
  }

  /** The heading recogniser at the start of `s`, given where its parts are. */
  lemma HeadingOnLine(s: seq<byte>, n: nat, nl: nat, x: seq<byte>)
    requires 1 <= n < MaxHeaderSize && n < nl < |s|
    requires s[0] == HASH && s[n] == SPACE
    requires HashRun(s, 0) == n && FindByte(s, 0, NL) == Some(nl) && s[n + 1..nl] == x
    requires |OscHeading(MaxHeaderSize - n, x)| < CtrlSize
    ensures FormatStep(s, 0) == Step(OscHeading(MaxHeaderSize - n, x) + Repeat(NL, MaxHeaderSize - n), nl + 1)
  {
    assert HeadingAt(s, 0) && HeadingValid(s, 0);
  }

  /** The `#`-run, the newline and the text of such a line. */
  lemma HeadingLineShape(n: nat, x: seq<byte>, rest: seq<byte>)
    requires forall k :: 0 <= k < |x| ==> x[k] != NL
    ensures var s := Repeat(HASH, n) + [SPACE] + x + [NL] + rest;
            var nl := n + 1 + |x|;
            HashRun(s, 0) == n && FindByte(s, 0, NL) == Some(nl) && s[n + 1..nl] == x
  {
    var s := Repeat(HASH, n) + [SPACE] + x + [NL] + rest;
    var nl := n + 1 + |x|;
    assert forall k :: 0 <= k < n ==> s[k] == HASH;
    assert s[n] == SPACE && s[nl] == NL;
    assert forall k :: n < k < nl ==> s[k] == x[k - n - 1];
  }

  /** A line-start `#` with no newline anywhere after it is no heading: it
      is copied, and so is the unmarked rest. */
  lemma HeadingWithoutNewline(s: seq<byte>)
    requires s != [] && s[0] == HASH
    requires forall k :: 0 <= k < |s| ==> s[k] != NL
    requires NoMarkupFrom(s, 1)
    ensures FormatString(s) == Done(s)
  {
    assert FindByte(s, 0, NL) == None;
    assert FormatStep(s, 0) == Step([HASH], 1);
    FormatFromPlain(s, 1);
    assert s == [HASH] + s[1..];
  }

  /** A closed wikilink shows the text after its last `|`, underlined; a
      `|` in the target does not matter. Unmarked text after it is copied. */
  lemma LinkWithAlias(target: seq<byte>, alias: seq<byte>, rest: seq<byte>)
    requires forall k :: 0 <= k < |target| ==> target[k] != RBRACKET
    requires forall k :: 0 <= k < |alias| ==> alias[k] != RBRACKET && alias[k] != PIPE
    requires |alias| + 8 < CtrlSize
    requires NoMarkupFrom(rest, 0)
    ensures FormatString([LBRACKET, LBRACKET] + target + [PIPE] + alias + [RBRACKET, RBRACKET] + rest)
              == Done(UnderlineOn + alias + StyleOff + rest)
  {
    var line := [LBRACKET, LBRACKET] + target + [PIPE] + alias + [RBRACKET, RBRACKET];
    var s := line + rest;
    var p := 2 + |target|;
    var j := p + 1 + |alias|;
    assert forall k :: 2 <= k < p ==> s[k] == target[k - 2];
    assert s[p] == PIPE;
    assert forall k :: p < k < j ==> s[k] == alias[k - p - 1];
    assert PairAt(s, j, RBRACKET);
    assert FindPair(s, 2, RBRACKET) == Some(j);
    assert LastIndex(s, 2, j, PIPE) == Some(p);
    assert s[p + 1..j] == alias;
    LinkOnLine(s, j, p + 1, alias);
    NoMarkupShift(line, rest);
    FormatLineThenPlain(line, rest, UnderlineOn + alias + StyleOff);
  }

  /** The wikilink recogniser at the start of `s`, given where the shown
      text starts and where the link closes. */
  lemma LinkOnLine(s: seq<byte>, j: nat, start: nat, shown: seq<byte>)
    requires |s| >= 2 && s[0] == LBRACKET && s[1] == LBRACKET
    requires FindPair(s, 2, RBRACKET) == Some(j) && LabelStart(s, 2, j) == start
    requires s[start..j] == shown && |shown| + 8 < CtrlSize
    ensures FormatStep(s, 0) == Step(UnderlineOn + shown + StyleOff, j + 2)
  {
    assert LinkAt(s, 0) && !HeadingAt(s, 0) && !BoldAt(s, 0);
  }

  /** ...or its whole target when it has none. */
  lemma LinkWithoutAlias(target: seq<byte>, rest: seq<byte>)
    requires forall k :: 0 <= k < |target| ==> target[k] != RBRACKET && target[k] != PIPE
    requires |target| + 8 < CtrlSize
    requires NoMarkupFrom(rest, 0)
    ensures FormatString([LBRACKET, LBRACKET] + target + [RBRACKET, RBRACKET] + rest)
              == Done(UnderlineOn + target + StyleOff + rest)
  {
    var line := [LBRACKET, LBRACKET] + target + [RBRACKET, RBRACKET];
    var s := line + rest;
    var j := 2 + |target|;
    assert forall k :: 2 <= k < j ==> s[k] == target[k - 2];
    assert PairAt(s, j, RBRACKET);
    assert FindPair(s, 2, RBRACKET) == Some(j);
    assert LastIndex(s, 2, j, PIPE) == None;
    assert s[2..j] == target;
    LinkOnLine(s, j, 2, target);
    NoMarkupShift(line, rest);
    FormatLineThenPlain(line, rest, UnderlineOn + target + StyleOff);
  }
}

=== FILE: pt_str.dfy ===
/** The growable string `pt_str` of ds.c: the bytes in use, which never
    contain NUL because every reader of the buffer stops at the first NUL, and
    the size of the allocation, which counts the terminator. A capacity of 0
    is the released state (`data == NULL`). */
module PtString {
  import opened Bytes

  datatype Str = Str(data: seq<byte>, cap: nat)

  /** The invariant every `pt_str` the API hands out keeps. */
  predicate Wellformed(s: Str) {
    && NulFree(s.data)
    && (s.cap == 0 ==> s.data == [])
    && (s.cap != 0 ==> |s.data| + 1 <= s.cap)
  }

  type Buffer = s: Str | Wellformed(s) witness Str([], 0)

  const InitialCapacity: nat := 16

  /** `2^k`. */
  function Pow2(k: nat): (r: nat)
    ensures r >= 1
  {
    if k == 0 then 1 else 2 * Pow2(k - 1)
  }

  /** `grown` is `cap` doubled some number of times. */
  ghost predicate DoublingOf(cap: nat, grown: nat) {
    exists k: nat :: grown == cap * Pow2(k)
  }

  /** `pt_str_init` (`pt_str_new` is this plus the heap cell holding it). */
  function Init(): (b: Buffer)
    ensures b.data == [] && b.cap == InitialCapacity
  {
    Str([], InitialCapacity)
  }

  /** `pt_str_free`: the storage is released and the buffer is left empty with
      no capacity. */
  function Free(b: Buffer): (r: Buffer)
    ensures r.data == [] && r.cap == 0
  {
    Str([], 0)
  }

  /** What `strlen` sees of `t`: the bytes before its first NUL. */
  function CStr(t: seq<byte>): (r: seq<byte>)
    ensures NulFree(r) && r <= t
    ensures |r| < |t| ==> t[|r|] == NUL
    decreases |t|
  {
    if t == [] || t[0] == NUL then [] else [t[0]] + CStr(t[1..])
  }

  /** The growth loop of `pt_str_append`: double `cap` until it reaches
      `required`. */
  function GrowCapacity(cap: nat, required: nat): (r: nat)
    requires cap > 0
    ensures required <= r && cap <= r
    ensures DoublingOf(cap, r)
    ensures cap < r ==> r / 2 < required && r % 2 == 0
    decreases required - cap
  {
    if cap >= required then
      assert cap == cap * Pow2(0);
      cap
    else
      var r := GrowCapacity(cap * 2, required);
      DoublingOfDouble(cap, r);
      r
  }

  /** Arithmetic regrouping used by the capacity proof below; it models
      nothing in the program. */
  lemma MulAssoc(a: nat, b: nat, c: nat)
    ensures a * b * c == a * (b * c) == (a * c) * b
  {
  }

  /** A doubling of `2 * cap` is an even doubling of `cap`. */
  lemma DoublingOfDouble(cap: nat, r: nat)
    requires DoublingOf(cap * 2, r)
    ensures DoublingOf(cap, r) && r % 2 == 0
  {
    var k: nat :| r == cap * 2 * Pow2(k);
    var p := Pow2(k);
    assert Pow2(k + 1) == 2 * p;
    assert r == cap * (2 * p) by { MulAssoc(cap, 2, p); }
    assert r % 2 == 0 by { MulAssoc(cap, 2, p); assert r == (cap * p) * 2; }
  }

  /** Outcome of `pt_str_append`: the buffer afterwards and the return code. */
  datatype Appended = Appended(buf: Buffer, rc: int)

  /** `pt_str_append`: a released buffer refuses with -1; otherwise the
      C-string part of `suffix` is appended, growing the allocation by doubling
      only when it is too small, and its length is returned. */
  function Append(b: Buffer, suffix: seq<byte>): (r: Appended)
    ensures b.cap == 0 ==> r == Appended(b, -1)
    ensures b.cap != 0 ==> r.buf.data == b.data + CStr(suffix) && r.rc == |CStr(suffix)|
    ensures b.cap != 0 ==> b.cap <= r.buf.cap && |r.buf.data| + 1 <= r.buf.cap
    ensures |r.buf.data| + 1 <= b.cap ==> r.buf.cap == b.cap
    ensures b.cap < r.buf.cap ==> DoublingOf(b.cap, r.buf.cap) && r.buf.cap / 2 < |r.buf.data| + 1
  {
    if b.cap == 0 then Appended(b, -1)
    else
      var t := CStr(suffix);
      var required := |b.data| + |t| + 1;
      var cap := if required > b.cap then GrowCapacity(b.cap, required) else b.cap;
      Appended(Str(b.data + t, cap), |t|)
  }

  /** `pt_str_append_char`: the one-byte string `{c, '\0'}` is appended, so a
      NUL byte appends nothing. */
  function AppendChar(b: Buffer, c: byte): (r: Buffer)
    ensures b.cap != 0 && c != NUL ==> r.data == b.data + [c] && r.cap >= b.cap
    ensures b.cap == 0 || c == NUL ==> r == b
  {
    assert CStr([c, NUL]) == if c == NUL then [] else [c] + CStr([NUL]);
    Append(b, [c, NUL]).buf
  }

  /** `pt_str_delete_char`: drop the last byte; nothing happens when empty. */
  function DeleteChar(b: Buffer): (r: Buffer)
    ensures |b.data| > 0 ==> r.data == b.data[..|b.data| - 1] && r.cap == b.cap
    ensures b.data == [] ==> r == b
  {
    if |b.data| > 0 then Str(b.data[..|b.data| - 1], b.cap) else b
  }

  /** `pt_str_from`: a fresh buffer holding the C-string part of `t`. */
  function From(t: seq<byte>): (r: Buffer)
    ensures r.data == CStr(t)
    ensures InitialCapacity <= r.cap && DoublingOf(InitialCapacity, r.cap)
  {
    var r := Append(Init(), t).buf;
    assert r.cap == InitialCapacity ==> r.cap == InitialCapacity * Pow2(0);
    r
  }

  /** A whole sequence of appends; `rc` is the sum of the return codes. */
  function AppendAll(b: Buffer, ts: seq<seq<byte>>): Appended
    decreases |ts|
  {
    if ts == [] then Appended(b, 0)
    else
      var first := Append(b, ts[0]);
      var rest := AppendAll(first.buf, ts[1..]);
      Appended(rest.buf, first.rc + rest.rc)
  }

  /** The C-string parts of `ts`, one after another. */
  function Joined(ts: seq<seq<byte>>): seq<byte>
    decreases |ts|
  {
    if ts == [] then [] else CStr(ts[0]) + Joined(ts[1..])
  }

  /** After any sequence of appends to a live buffer, the content is the old
      content followed by everything appended, and its growth equals the sum
      of the returned byte counts. */
  lemma {:induction false} AppendAllAccumulates(b: Buffer, ts: seq<seq<byte>>)
    requires b.cap != 0
    ensures AppendAll(b, ts).buf.data == b.data + Joined(ts)
    ensures |AppendAll(b, ts).buf.data| == |b.data| + AppendAll(b, ts).rc
    ensures AppendAll(b, ts).buf.cap >= b.cap
    decreases |ts|
  {
    if ts != [] {
      var first := Append(b, ts[0]);
      AppendAllAccumulates(first.buf, ts[1..]);
      ConcatAssoc(b.data, CStr(ts[0]), Joined(ts[1..]));
    }
  }

  /** Appending the empty string to a live buffer returns 0 and changes
      nothing, capacity included. */
  lemma AppendEmptyChangesNothing(b: Buffer)
    requires b.cap != 0
    ensures Append(b, []) == Appended(b, 0)
  {
    assert b.data + [] == b.data;
  }

  /** Deleting the byte just appended gives back the content. */
  lemma DeleteUndoesAppendChar(b: Buffer, c: byte)
    requires b.cap != 0 && c != NUL
    ensures DeleteChar(AppendChar(b, c)).data == b.data
  {
    assert (b.data + [c])[..|b.data|] == b.data;
  }

  /** A released buffer refuses every append and stays released; releasing it
      again changes nothing. */
  lemma FreedBufferIsInert(b: Buffer, t: seq<byte>)
    ensures Append(Free(b), t) == Appended(Free(b), -1)
    ensures Free(Free(b)) == Free(b)
    ensures DeleteChar(Free(b)) == Free(b)
  {
  }

  /** The capacity boundaries of the unit tests: 15 bytes fit in 16; the 16th
      byte doubles to 32; 15 more fit; the 32nd byte doubles to 64. */
  lemma CapacityBoundaries()
    ensures var s1 := Append(Init(), Repeat('a' as int, 15)).buf;
            var s2 := AppendChar(s1, 'b' as int);
            var s3 := Append(s2, Repeat('c' as int, 15)).buf;
            var s4 := AppendChar(s3, 'd' as int);
            && |s1.data| == 15 && s1.cap == 16
            && |s2.data| == 16 && s2.cap == 32
            && |s3.data| == 31 && s3.cap == 32
            && |s4.data| == 32 && s4.cap == 64
  {
    var a := Repeat('a' as int, 15);
    assert CStr(a) == a by { CStrOfNulFree(a); }
    var c := Repeat('c' as int, 15);
    assert CStr(c) == c by { CStrOfNulFree(c); }
  }

  /** The C string of a NUL-free sequence is the whole sequence. */
  lemma {:induction false} CStrOfNulFree(t: seq<byte>)
    requires NulFree(t)
    ensures CStr(t) == t
    decreases |t|
  {
    if t != [] {
      CStrOfNulFree(t[1..]);
    }
  }

  /** Deleting the last two bytes of a fresh buffer and appending a C string
      replaces those two bytes with it ("hello", two deletions, "p!" gives
      "help!"). */
  lemma DeleteTwiceThenAppend(x: seq<byte>, c: byte, d: byte, y: seq<byte>)
    requires NulFree(x + [c, d]) && NulFree(y)
    ensures Append(DeleteChar(DeleteChar(From(x + [c, d]))), y).buf.data == x + y
  {
    CStrOfNulFree(x + [c, d]);
    CStrOfNulFree(y);
    var once := DeleteChar(From(x + [c, d]));
    assert once.data == x + [c];
    assert DeleteChar(once).data == x;
    assert DeleteChar(once).cap != 0;
  }
}

=== FILE: render.dfy ===
/** The render plan of render.c (`pt_render_state`): copy the content,
    censor it when censoring is on, format it when the terminal is kitty,
    wrap it, and draw the newest lines upwards from the middle row of the
    screen, one cursor move per line. Instead of printing, the model returns
    the wrapped lines and the ordered list of draws. The arithmetic on the
    window size is `unsigned short` and wraps. */
module Render {
  import opened Bytes
  import opened PtString
  import opened Censor
  import opened Format
  import opened Wrap
  import opened Editor

  /** One `pt_move_cursor` + `printf` pair: `line` indexes the wrapped lines. */
  datatype Draw = Draw(row: u16, col: u16, line: nat)

  /** What a render produces: the wrapped lines and the draws, in order; or
      nothing, when the formatter never returns. */
  datatype Frame = Frame(lines: seq<seq<byte>>, draws: seq<Draw>) | Hung

  /** `center_row`: `rows - 1` is computed in `int` and cast back, so a
      window of 0 rows gives 65535 / 2. */
  function CenterRow(rows: u16): (r: u16)
    ensures rows >= 1 ==> r == (rows - 1) / 2
    ensures rows == 0 ==> r == 32767
  {
    U16(rows - 1) / 2
  }

  /** `start_col`: `cols - 80` cast to `unsigned short`, halved. A window
      narrower than 80 columns wraps around to a column far off screen. */
  function StartCol(cols: u16): (r: u16)
    ensures cols >= TextWidth ==> r == (cols - TextWidth) / 2
    ensures cols < TextWidth ==> r == (0x1_0000 + cols - TextWidth) / 2 && r >= 32728
  {
    U16(cols - TextWidth) / 2
  }

  function Min(a: nat, b: nat): nat {
    if a <= b then a else b
  }

  /** Reference plan: line `n - 1 - i` (cast to `unsigned short`) at row
      `center - i` for every `i` below both `n` and `center`, then line
      `n - 1` again at the centre row. */
  function Plan(n: nat, rows: u16, cols: u16): (p: seq<Draw>)
    requires n >= 1
    ensures |p| == Min(n, CenterRow(rows)) + 1
  {
    var center, start := CenterRow(rows), StartCol(cols);
    var m := Min(n, center);
    seq(m, i requires 0 <= i < m => Draw(center - i, start, U16(n - 1 - i)))
      + [Draw(center, start, n - 1)]
  }

  /** The draw loop of `pt_render_state`. `n` is the line count, at least 1
      as `pt_split_lines` guarantees. */
  method DrawOrder(n: nat, rows: u16, cols: u16) returns (draws: seq<Draw>)
    requires n >= 1
    ensures draws == Plan(n, rows, cols)
    ensures |draws| == Min(n, CenterRow(rows)) + 1
    ensures forall k :: 0 <= k < |draws| ==> draws[k].col == StartCol(cols) && draws[k].line < n
    ensures forall k :: 0 <= k < |draws| - 1 ==> 1 <= draws[k].row <= CenterRow(rows)
    ensures forall j, k :: 0 <= j < k < |draws| - 1 ==> draws[j].row > draws[k].row
    ensures draws[|draws| - 1] == Draw(CenterRow(rows), StartCol(cols), n - 1)
  {
    var center := CenterRow(rows);
    var start := StartCol(cols);
    draws := [];
    var i: nat := 0;
    while i < n && i < center
      invariant i <= n && i <= center
      invariant |draws| == i
      invariant forall k :: 0 <= k < i ==> draws[k] == Draw(center - k, start, U16(n - 1 - k))
    {
      draws := draws + [Draw(center - i, start, U16(n - 1 - i))];
      i := i + 1;
    }
    assert i == Min(n, center);
    draws := draws + [Draw(center, start, n - 1)];
    forall k | 0 <= k < |draws| - 1
      ensures draws[k].line < n
    {
      assert n - 1 - k >= 0;
    }
  }

  /** While the line count fits an `unsigned short`, the redraw at the end
      repeats the first draw exactly: same row, same column, same line. */
  lemma RedrawRepeatsNewest(n: nat, rows: u16, cols: u16)
    requires 1 <= n <= 0x1_0000 && CenterRow(rows) >= 1
    ensures var p := Plan(n, rows, cols); p[0] == p[|p| - 1]
  {
    var p := Plan(n, rows, cols);
    assert p[0] == Draw(CenterRow(rows), StartCol(cols), U16(n - 1));
  }

  /** With more lines than rows above the centre, only the newest
      `center` lines are drawn: the older ones scroll off the top. */
  lemma OldLinesScrollOff(n: nat, rows: u16, cols: u16)
    requires 1 <= n <= 0x1_0000 && 1 <= CenterRow(rows) < n
    ensures forall d :: d in Plan(n, rows, cols) ==> n - CenterRow(rows) <= d.line < n
  {
    var p := Plan(n, rows, cols);
    assert |p| - 1 == CenterRow(rows);
    forall d | d in p
      ensures n - CenterRow(rows) <= d.line < n
    {
      var k :| 0 <= k < |p| && p[k] == d;
      if k < |p| - 1 {
        assert d.line == U16(n - 1 - k) == n - 1 - k;
      } else {
        assert d.line == n - 1;
      }
    }
  }

  /** In a window of one or two rows the centre row is 0, so the single draw
      sends no cursor move and the newest line lands wherever the cursor is. */
  lemma TinyWindowMovesNoCursor(n: nat, rows: u16, cols: u16)
    requires n >= 1 && 1 <= rows <= 2
    ensures Plan(n, rows, cols) == [Draw(0, StartCol(cols), n - 1)]
    ensures MoveCursor(0, StartCol(cols)) == []
  {
    assert CenterRow(rows) == 0;
    assert |Plan(n, rows, cols)| == 1;
  }

  /** The text the wrapper receives: the content, censored when censoring is
      on, then formatted when the terminal is kitty. */
  function Shown(st: State, kitty: bool): Formatted {
    var text := if st.censored then Censored(st.content.data) else st.content.data;
    if kitty then FormatString(text) else Done(text)
  }

  /** `pt_render_state` with the kitty test (`TERM == "xterm-kitty"`) as a
      parameter. */
  method RenderState(st: State, kitty: bool) returns (f: Frame)
    ensures f.Hung? <==> Shown(st, kitty).Diverges?
    ensures f.Frame? ==> f.lines == SplitLines(Shown(st, kitty).out)
    ensures f.Frame? ==> f.draws == Plan(|f.lines|, st.rows, st.cols)
    ensures f.Frame? ==> forall k :: 0 <= k < |f.lines| ==> LineOk(SplitTokens(Shown(st, kitty).out)[k])
    ensures f.Frame? ==> JoinLines(f.lines) <= Unwrapped(Shown(st, kitty).out)
    ensures f.Frame? && !kitty && !st.censored ==> JoinLines(f.lines) <= Unwrapped(st.content.data)
  {
    var copy := From(st.content.data);
    CStrOfNulFree(st.content.data);
    var text := copy.data;
    if st.censored {
      text := CensorText(text);
    }
    if kitty {
      var formatted := FormatString(text);
      if formatted.Diverges? {
        return Hung;
      }
      text := formatted.out;
    }
    assert Shown(st, kitty) == Done(text);
    var lines := SplitLines(text);
    SplitLinesShape(text);
    SplitLinesPrefixOfInput(text);
    var draws := DrawOrder(|lines|, st.rows, st.cols);
    f := Frame(lines, draws);
  }
}

=== FILE: wrap.dfy ===
/** The escape-aware line wrapper of render.c (`pt_split_lines`). Both passes
    walk the input as the skipper cuts it: a whole escape sequence at each
    ESC, one byte otherwise. Pass 1 counts the lines; pass 2 fills exactly
    that many. Escape sequences take no columns and are never cut; a newline
    ends the line and is not copied; a line closes once 80 visible bytes sit
    in it.

    The passes disagree about the byte that forces a wrap: pass 1 resets its
    column counter to 0 on it, pass 2 puts it on the new line and counts it
    as 1. A line opened by a wrap therefore holds 81 bytes in pass 1 but only
    80 in pass 2 (a line opened by a newline holds 80 in both), so pass 2 can
    run out of lines and stop early, silently dropping the rest of the input.
    The model keeps that behaviour. */
module Wrap {
  import opened Bytes
  import opened Escape

  const TextWidth: nat := 80

  /** Pass 1: `cc` is `char_count`, `count` is `lines_count`. */
  function CountPass(ts: seq<Token>, cc: nat, count: nat): (r: nat)
    ensures count <= r <= count + |ts|
    decreases |ts|
  {
    if ts == [] then count
    else
      match ts[0]
      case Escape(_) => CountPass(ts[1..], cc, count)
      case Plain(b) =>
        if cc >= TextWidth || b == NL then CountPass(ts[1..], 0, count + 1)
        else CountPass(ts[1..], cc + 1, count)
  }

  /** The number of lines `pt_split_lines` allocates and returns. */
  function LineCount(s: seq<byte>): (n: nat)
    ensures n >= 1
  {
    CountPass(Tokenize(s), 0, 1)
  }

  /** `n` empty lines: the lines pass 2 never reaches stay as `pt_str_init`
      left them. */
  function Blank(n: nat): (r: seq<seq<Token>>)
    ensures |r| == n
    ensures forall k :: 0 <= k < n ==> r[k] == []
  {
    seq(n, _ => [])
  }

  /** Pass 2: `vc` is `visible_char_count`, `done` the lines already closed,
      `cur` the line being filled (`lines[line_index]`), `n` the count from
      pass 1. When a wrap would move past the last line the loop breaks and
      the remaining input is never copied. */
  function FillPass(ts: seq<Token>, vc: nat, n: nat, done: seq<seq<Token>>, cur: seq<Token>)
    : (r: seq<seq<Token>>)
    requires |done| < n
    ensures |r| == n
    ensures r[..|done|] == done
    decreases |ts|
  {
    if ts == [] then done + [cur] + Blank(n - |done| - 1)
    else
      match ts[0]
      case Escape(_) => FillPass(ts[1..], vc, n, done, cur + [ts[0]])
      case Plain(b) =>
        if vc >= TextWidth || b == NL then
          if |done| + 1 >= n then done + [cur] + Blank(n - |done| - 1)
          else if b == NL then FillPass(ts[1..], 0, n, done + [cur], [])
          else FillPass(ts[1..], 1, n, done + [cur], [ts[0]])
        else FillPass(ts[1..], vc + 1, n, done, cur + [ts[0]])
  }

  /** The lines of `s` as token sequences. */
  function SplitTokens(s: seq<byte>): (lines: seq<seq<Token>>)
    ensures |lines| == LineCount(s)
  {
    FillPass(Tokenize(s), 0, LineCount(s), [], [])
  }

  /** `pt_split_lines`: the bytes of each line. */
  function SplitLines(s: seq<byte>): (lines: seq<seq<byte>>)
    ensures |lines| == LineCount(s)
    ensures forall k :: 0 <= k < |lines| ==> lines[k] == Flatten(SplitTokens(s)[k])
  {
    var ls := SplitTokens(s);
    seq(|ls|, k requires 0 <= k < |ls| => Flatten(ls[k]))
  }

  /** The columns a line occupies. */
  function Width(line: seq<Token>): nat {
    |PlainBytes(line)|
  }

  /** A line fits the 80-column budget and holds no newline outside escape
      sequences. */
  predicate LineOk(line: seq<Token>) {
    Width(line) <= TextWidth && NL !in PlainBytes(line)
  }

  /** The token stream without its newline tokens. */
  function Strip(ts: seq<Token>): seq<Token>
    decreases |ts|
  {
    if ts == [] then []
    else if ts[0] == Plain(NL) then Strip(ts[1..])
    else [ts[0]] + Strip(ts[1..])
  }

  /** The lines one after another. */
  function Concat(ls: seq<seq<Token>>): seq<Token>
    decreases |ls|
  {
    if ls == [] then [] else Concat(ls[..|ls| - 1]) + ls[|ls| - 1]
  }

  /** The input with its newlines (those outside escape sequences) removed:
      everything the wrapper is meant to lay out. */
  function Unwrapped(s: seq<byte>): seq<byte> {
    Flatten(Strip(Tokenize(s)))
  }

  lemma ConcatSnoc(ls: seq<seq<Token>>, l: seq<Token>)
    ensures Concat(ls + [l]) == Concat(ls) + l
  {
    assert (ls + [l])[..|ls|] == ls;
  }

  lemma {:induction false} ConcatBlank(ls: seq<seq<Token>>, k: nat)
    ensures Concat(ls + Blank(k)) == Concat(ls)
    decreases k
  {
    if k == 0 {
      assert ls + Blank(k) == ls;
    } else {
      assert ls + Blank(k) == (ls + Blank(k - 1)) + [[]];
      ConcatSnoc(ls + Blank(k - 1), []);
      assert Concat(ls + Blank(k - 1)) + [] == Concat(ls + Blank(k - 1));
      ConcatBlank(ls, k - 1);
    }
  }

  /** Every line pass 2 produces fits the budget and holds no newline
      outside escape sequences. */
  lemma {:induction false} FillPassLinesOk(ts: seq<Token>, vc: nat, n: nat, done: seq<seq<Token>>, cur: seq<Token>)
    requires |done| < n
    requires vc == Width(cur) <= TextWidth && NL !in PlainBytes(cur)
    requires forall k :: 0 <= k < |done| ==> LineOk(done[k])
    ensures forall k :: 0 <= k < n ==> LineOk(FillPass(ts, vc, n, done, cur)[k])
    decreases |ts|
  {
    var r := FillPass(ts, vc, n, done, cur);
    if ts == [] {
      assert r == done + [cur] + Blank(n - |done| - 1);
      assert forall k :: |done| < k < n ==> r[k] == [];
    } else {
      var t := ts[0];
      PlainBytesAppend(cur, [t]);
      match t
      case Escape(_) =>
        FillPassLinesOk(ts[1..], vc, n, done, cur + [t]);
      case Plain(b) =>
        if vc >= TextWidth || b == NL {
          if |done| + 1 >= n {
            assert r == done + [cur] + Blank(n - |done| - 1);
          } else if b == NL {
            FillPassLinesOk(ts[1..], 0, n, done + [cur], []);
          } else {
            PlainBytesAppend([], [t]);
            FillPassLinesOk(ts[1..], 1, n, done + [cur], [t]);
          }
        } else {
          FillPassLinesOk(ts[1..], vc + 1, n, done, cur + [t]);
        }
    }
  }

  /** What pass 2 lays out is an in-order prefix of what it was given,
      newlines left out. */
  lemma {:induction false} FillPassPrefix(ts: seq<Token>, vc: nat, n: nat, done: seq<seq<Token>>, cur: seq<Token>)
    requires |done| < n
    ensures Concat(FillPass(ts, vc, n, done, cur)) <= Concat(done) + cur + Strip(ts)
    decreases |ts|
  {
    if ts == [] || (ts[0].Plain? && (vc >= TextWidth || ts[0].b == NL) && |done| + 1 >= n) {
      FillPassStops(ts, vc, n, done, cur);
    } else if ts[0].Escape? || (vc < TextWidth && ts[0].b != NL) {
      var vc' := if ts[0].Escape? then vc else vc + 1;
      FillPassPrefix(ts[1..], vc', n, done, cur + [ts[0]]);
      PrefixSameLine(ts, vc, vc', n, done, cur);
    } else if ts[0].b == NL {
      FillPassPrefix(ts[1..], 0, n, done + [cur], []);
      PrefixNewline(ts, vc, n, done, cur);
    } else {
      FillPassPrefix(ts[1..], 1, n, done + [cur], [ts[0]]);
      PrefixWrap(ts, vc, n, done, cur);
    }
  }

  /** The step of `FillPassPrefix` for a token that stays on the line. */
  lemma PrefixSameLine(ts: seq<Token>, vc: nat, vc': nat, n: nat, done: seq<seq<Token>>, cur: seq<Token>)
    requires |done| < n && ts != []
    requires ts[0].Escape? || (vc < TextWidth && ts[0].b != NL)
    requires vc' == if ts[0].Escape? then vc else vc + 1
    requires Concat(FillPass(ts[1..], vc', n, done, cur + [ts[0]])) <= Concat(done) + (cur + [ts[0]]) + Strip(ts[1..])
    ensures Concat(FillPass(ts, vc, n, done, cur)) <= Concat(done) + cur + Strip(ts)
  {
    assert FillPass(ts, vc, n, done, cur) == FillPass(ts[1..], vc', n, done, cur + [ts[0]]);
    StripCons(ts);
    ConcatRegroup(Concat(done), cur, [ts[0]], Strip(ts[1..]));
  }

  /** The step of `FillPassPrefix` for a newline that opens a new line. */
  lemma PrefixNewline(ts: seq<Token>, vc: nat, n: nat, done: seq<seq<Token>>, cur: seq<Token>)
    requires |done| + 1 < n && ts != [] && ts[0] == Plain(NL)
    requires Concat(FillPass(ts[1..], 0, n, done + [cur], [])) <= Concat(done + [cur]) + [] + Strip(ts[1..])
    ensures Concat(FillPass(ts, vc, n, done, cur)) <= Concat(done) + cur + Strip(ts)
  {
    assert FillPass(ts, vc, n, done, cur) == FillPass(ts[1..], 0, n, done + [cur], []);
    ConcatSnoc(done, cur);
    assert Strip(ts) == Strip(ts[1..]);
    ConcatEmpty(Concat(done + [cur]));
  }

  /** The step of `FillPassPrefix` for the byte that forces a wrap. */
  lemma PrefixWrap(ts: seq<Token>, vc: nat, n: nat, done: seq<seq<Token>>, cur: seq<Token>)
    requires |done| + 1 < n && ts != [] && ts[0].Plain? && ts[0].b != NL && vc >= TextWidth
    requires Concat(FillPass(ts[1..], 1, n, done + [cur], [ts[0]])) <= Concat(done + [cur]) + [ts[0]] + Strip(ts[1..])
    ensures Concat(FillPass(ts, vc, n, done, cur)) <= Concat(done) + cur + Strip(ts)
  {
    assert FillPass(ts, vc, n, done, cur) == FillPass(ts[1..], 1, n, done + [cur], [ts[0]]);
    ConcatSnoc(done, cur);
    StripCons(ts);
    ConcatAssoc(Concat(done) + cur, [ts[0]], Strip(ts[1..]));
  }

  /** A token other than a newline survives `Strip`. */
  lemma StripCons(ts: seq<Token>)
    requires ts != [] && ts[0] != Plain(NL)
    ensures Strip(ts) == [ts[0]] + Strip(ts[1..])
  {
  }

  /** Where pass 2 stops, the lines so far are the result. */
  lemma FillPassStops(ts: seq<Token>, vc: nat, n: nat, done: seq<seq<Token>>, cur: seq<Token>)
    requires |done| < n
    requires ts == [] || (ts[0].Plain? && (vc >= TextWidth || ts[0].b == NL) && |done| + 1 >= n)
    ensures Concat(FillPass(ts, vc, n, done, cur)) == Concat(done) + cur
  {
    assert FillPass(ts, vc, n, done, cur) == done + [cur] + Blank(n - |done| - 1);
    ConcatBlank(done + [cur], n - |done| - 1);
    ConcatSnoc(done, cur);
  }

  /** `pt_split_lines`: it returns exactly the pass-1 count of lines (at least
      one); every line fits the 80-column budget and holds no newline outside
      escape sequences; every line is made of whole tokens, so an escape
      sequence is never cut; and the lines laid end to end are an in-order
      prefix of the input's tokens with the newline tokens taken out. */
  lemma SplitLinesShape(s: seq<byte>)
    ensures |SplitLines(s)| == |SplitTokens(s)| == LineCount(s) >= 1
    ensures forall k :: 0 <= k < |SplitTokens(s)| ==> LineOk(SplitTokens(s)[k])
    ensures forall k :: 0 <= k < |SplitLines(s)| ==> SplitLines(s)[k] == Flatten(SplitTokens(s)[k])
    ensures Concat(SplitTokens(s)) <= Strip(Tokenize(s))
  {
    FillPassLinesOk(Tokenize(s), 0, LineCount(s), [], []);
    FillPassPrefix(Tokenize(s), 0, LineCount(s), [], []);
  }

  /** The lines' bytes, one after another. */
  function JoinLines(lines: seq<seq<byte>>): seq<byte>
    decreases |lines|
  {
    if lines == [] then [] else JoinLines(lines[..|lines| - 1]) + lines[|lines| - 1]
  }

  lemma {:induction false} FlattenConcat(ls: seq<seq<Token>>)
    ensures Flatten(Concat(ls)) == JoinLines(seq(|ls|, k requires 0 <= k < |ls| => Flatten(ls[k])))
    decreases |ls|
  {
    var fl := seq(|ls|, k requires 0 <= k < |ls| => Flatten(ls[k]));
    if ls != [] {
      var init := ls[..|ls| - 1];
      FlattenConcat(init);
      assert fl[..|fl| - 1] == seq(|init|, k requires 0 <= k < |init| => Flatten(init[k]));
      FlattenAppend(Concat(init), ls[|ls| - 1]);
    }
  }

  /** In bytes: the printed lines laid end to end are a prefix of the input
      with its newlines outside escape sequences removed. */
  lemma SplitLinesPrefixOfInput(s: seq<byte>)
    ensures JoinLines(SplitLines(s)) <= Unwrapped(s)
  {
    SplitLinesShape(s);
    var ls := SplitTokens(s);
    FlattenConcat(ls);
    assert SplitLines(s) == seq(|ls|, k requires 0 <= k < |ls| => Flatten(ls[k]));
    var strip := Strip(Tokenize(s));
    assert strip == Concat(ls) + strip[|Concat(ls)|..];
    FlattenAppend(Concat(ls), strip[|Concat(ls)|..]);
  }

  /** The number of newline tokens. */
  function NewlineCount(ts: seq<Token>): nat
    decreases |ts|
  {
    if ts == [] then 0
    else (if ts[0] == Plain(NL) then 1 else 0) + NewlineCount(ts[1..])
  }

  /** No byte ever forces a wrap: every newline-free run of ordinary bytes,
      the first one counted from column `vc`, has at most 80 bytes. */
  predicate Fits(ts: seq<Token>, vc: nat)
    decreases |ts|
  {
    if ts == [] then true
    else
      match ts[0]
      case Escape(_) => Fits(ts[1..], vc)
      case Plain(b) =>
        if b == NL then Fits(ts[1..], 0) else vc < TextWidth && Fits(ts[1..], vc + 1)
  }

  /** When nothing forces a wrap, pass 1 counts one more line per newline
      and nothing else. */
  lemma {:induction false} CountFits(ts: seq<Token>, cc: nat, count: nat)
    requires Fits(ts, cc)
    ensures CountPass(ts, cc, count) == count + NewlineCount(ts)
    decreases |ts|
  {
    if ts != [] {
      match ts[0]
      case Escape(_) =>
        CountFits(ts[1..], cc, count);
      case Plain(b) =>
        if b == NL {
          CountFits(ts[1..], 0, count + 1);
        } else {
          CountFits(ts[1..], cc + 1, count);
        }
    }
  }

  /** When nothing forces a wrap and pass 1 left one line per remaining
      newline, pass 2 lays out all of its input, newline tokens removed. */
  lemma {:induction false} FillWhole(ts: seq<Token>, vc: nat, n: nat, done: seq<seq<Token>>, cur: seq<Token>)
    requires n == |done| + 1 + NewlineCount(ts)
    requires Fits(ts, vc)
    ensures Concat(FillPass(ts, vc, n, done, cur)) == Concat(done) + cur + Strip(ts)
    decreases |ts|
  {
    if ts == [] {
      FillPassStops(ts, vc, n, done, cur);
      ConcatEmpty(Concat(done) + cur);
    } else if ts[0] == Plain(NL) {
      FillWhole(ts[1..], 0, n, done + [cur], []);
      WholeNewline(ts, vc, n, done, cur);
    } else {
      var vc' := if ts[0].Escape? then vc else vc + 1;
      FillWhole(ts[1..], vc', n, done, cur + [ts[0]]);
      WholeSameLine(ts, vc, vc', n, done, cur);
    }
  }

  /** The step of `FillWhole` for a token that stays on the line. */
  lemma WholeSameLine(ts: seq<Token>, vc: nat, vc': nat, n: nat, done: seq<seq<Token>>, cur: seq<Token>)
    requires |done| < n && ts != [] && ts[0] != Plain(NL)
    requires ts[0].Escape? || vc < TextWidth
    requires vc' == if ts[0].Escape? then vc else vc + 1
    requires Concat(FillPass(ts[1..], vc', n, done, cur + [ts[0]])) == Concat(done) + (cur + [ts[0]]) + Strip(ts[1..])
    ensures Concat(FillPass(ts, vc, n, done, cur)) == Concat(done) + cur + Strip(ts)
  {
    assert FillPass(ts, vc, n, done, cur) == FillPass(ts[1..], vc', n, done, cur + [ts[0]]);
    StripCons(ts);
    ConcatRegroup(Concat(done), cur, [ts[0]], Strip(ts[1..]));
  }

  /** The step of `FillWhole` for a newline, which opens the next line. */
  lemma WholeNewline(ts: seq<Token>, vc: nat, n: nat, done: seq<seq<Token>>, cur: seq<Token>)
    requires |done| + 1 < n && ts != [] && ts[0] == Plain(NL)
    requires Concat(FillPass(ts[1..], 0, n, done + [cur], [])) == Concat(done + [cur]) + [] + Strip(ts[1..])
    ensures Concat(FillPass(ts, vc, n, done, cur)) == Concat(done) + cur + Strip(ts)
  {
    assert FillPass(ts, vc, n, done, cur) == FillPass(ts[1..], 0, n, done + [cur], []);
    ConcatSnoc(done, cur);
    assert Strip(ts) == Strip(ts[1..]);
    ConcatEmpty(Concat(done + [cur]));
  }

  /** When no newline-free run needs a wrap, the two passes agree: there is
      one line more than there are newlines, and the lines laid end to end
      are the whole input with its newline tokens removed. So only a wrap
      can lose input. */
  lemma SplitLinesWhole(s: seq<byte>)
    requires Fits(Tokenize(s), 0)
    ensures LineCount(s) == 1 + NewlineCount(Tokenize(s))
    ensures Concat(SplitTokens(s)) == Strip(Tokenize(s))
    ensures JoinLines(SplitLines(s)) == Unwrapped(s)
  {
    var ts := Tokenize(s);
    CountFits(ts, 0, 1);
    FillWhole(ts, 0, LineCount(s), [], []);
    assert Concat([]) + [] == [];
    ConcatEmpty(Strip(ts));
    var ls := SplitTokens(s);
    FlattenConcat(ls);
    assert SplitLines(s) == seq(|ls|, k requires 0 <= k < |ls| => Flatten(ls[k]));
  }

  /** Plain bytes: neither ESC nor newline. */
  predicate Ordinary(x: seq<byte>) {
    forall k :: 0 <= k < |x| ==> x[k] != ESC && x[k] != NL
  }

  lemma {:induction false} FlattenPlains(x: seq<byte>)
    ensures Flatten(Plains(x)) == x
    decreases |x|
  {
    if x != [] {
      assert Plains(x)[1..] == Plains(x[1..]);
      FlattenPlains(x[1..]);
    }
  }

  /** Sequence algebra: the tokens of two byte runs side by side. */
  lemma PlainsAppend(a: seq<byte>, b: seq<byte>)
    ensures Plains(a + b) == Plains(a) + Plains(b)
  {
  }

  /** Pass 1 over a run of ordinary bytes that stays within the budget only
      advances the column. */
  lemma {:induction false} CountRun(x: seq<byte>, rest: seq<Token>, cc: nat, count: nat)
    requires Ordinary(x) && cc + |x| <= TextWidth
    ensures CountPass(Plains(x) + rest, cc, count) == CountPass(rest, cc + |x|, count)
    decreases |x|
  {
    if x != [] {
      assert (Plains(x) + rest)[0] == Plain(x[0]);
      assert (Plains(x) + rest)[1..] == Plains(x[1..]) + rest;
      CountRun(x[1..], rest, cc + 1, count);
    } else {
      assert Plains(x) + rest == rest;
    }
  }

  /** Pass 2 over a run of ordinary bytes that stays within the budget copies
      it onto the current line. */
  lemma {:induction false} FillRun(x: seq<byte>, rest: seq<Token>, vc: nat, n: nat, done: seq<seq<Token>>, cur: seq<Token>)
    requires |done| < n
    requires Ordinary(x) && vc + |x| <= TextWidth
    ensures FillPass(Plains(x) + rest, vc, n, done, cur) == FillPass(rest, vc + |x|, n, done, cur + Plains(x))
    decreases |x|
  {
    if x != [] {
      assert (Plains(x) + rest)[0] == Plain(x[0]);
      assert (Plains(x) + rest)[1..] == Plains(x[1..]) + rest;
      FillRun(x[1..], rest, vc + 1, n, done, cur + [Plain(x[0])]);
      assert cur + [Plain(x[0])] + Plains(x[1..]) == cur + Plains(x);
    } else {
      assert Plains(x) + rest == rest;
      assert cur + Plains(x) == cur;
    }
  }

  /** Ordinary text is scanned as one plain token per byte. */
  lemma TokenizeOrdinary(x: seq<byte>)
    requires Ordinary(x)
    ensures Tokenize(x) == Plains(x)
  {
    TokenizeEscFree(x, []);
    assert x + [] == x;
    assert Plains(x) + [] == Plains(x);
  }

  /** The lines' bytes once the lines' tokens are known. */
  lemma SplitLinesOf(s: seq<byte>, ls: seq<seq<Token>>)
    requires SplitTokens(s) == ls
    ensures SplitLines(s) == seq(|ls|, k requires 0 <= k < |ls| => Flatten(ls[k]))
  {
  }

  /** Text of at most 80 ordinary bytes stays on one line. */
  lemma ShortTextIsOneLine(x: seq<byte>)
    requires Ordinary(x) && |x| <= TextWidth
    ensures SplitLines(x) == [x]
  {
    TokenizeOrdinary(x);
    var ts := Plains(x);
    assert ts + [] == ts;
    CountRun(x, [], 0, 1);
    assert LineCount(x) == 1;
    FillRun(x, [], 0, 1, [], []);
    assert [] + ts == ts;
    assert FillPass([], |x|, 1, [], ts) == [ts];
    assert SplitTokens(x) == [ts];
    SplitLinesOf(x, [ts]);
    FlattenPlains(x);
  }

  /** A line break as the very last byte gives a trailing empty line. */
  lemma TrailingNewlineAddsEmptyLine(x: seq<byte>)
    requires Ordinary(x) && |x| <= TextWidth
    ensures SplitLines(x + [NL]) == [x, []]
  {
    TokenizeEscFree(x, [NL]);
    assert Tokenize([NL]) == [Plain(NL)];
    var ts := Plains(x);
    CountRun(x, [Plain(NL)], 0, 1);
    assert CountPass([Plain(NL)], |x|, 1) == 2;
    assert LineCount(x + [NL]) == 2;
    FillRun(x, [Plain(NL)], 0, 2, [], []);
    assert [] + ts == ts && [] + [ts] == [ts];
    assert [ts] + [[]] + Blank(0) == [ts, []];
    assert FillPass([Plain(NL)], |x|, 2, [], ts) == FillPass([], 0, 2, [ts], []);
    assert SplitTokens(x + [NL]) == [ts, []];
    SplitLinesOf(x + [NL], [ts, []]);
    FlattenPlains(x);
  }

  /** Ordinary bytes, one complete escape sequence, ordinary bytes: as
      tokens. */
  lemma EscapeLineTokens(a: seq<byte>, e: seq<byte>, b: seq<byte>)
    requires Ordinary(a) && Ordinary(b)
    requires e != [] && e[0] == ESC && EscapeLength(e + b) == |e|
    ensures Tokenize(a + e + b) == Plains(a) + ([Escape(e)] + Plains(b))
  {
    ConcatAssoc(a, e, b);
    TokenizeEscFree(a, e + b);
    TokenizeEscapeFirst(e, b);
    TokenizeOrdinary(b);
  }

  lemma EscapeLineCount(a: seq<byte>, e: seq<byte>, b: seq<byte>)
    requires Ordinary(a) && Ordinary(b) && |a| + |b| <= TextWidth
    requires e != [] && e[0] == ESC && EscapeLength(e + b) == |e|
    ensures LineCount(a + e + b) == 1
  {
    EscapeLineTokens(a, e, b);
    var tail := [Escape(e)] + Plains(b);
    assert tail[0] == Escape(e) && tail[1..] == Plains(b);
    assert Plains(b) + [] == Plains(b);
    CountRun(a, tail, 0, 1);
    assert CountPass(tail, |a|, 1) == CountPass(Plains(b) + [], |a|, 1);
    CountRun(b, [], |a|, 1);
  }

  lemma EscapeLineFill(a: seq<byte>, e: seq<byte>, b: seq<byte>)
    requires Ordinary(a) && Ordinary(b) && |a| + |b| <= TextWidth
    requires e != [] && e[0] == ESC && EscapeLength(e + b) == |e|
    ensures SplitTokens(a + e + b) == [Plains(a) + [Escape(e)] + Plains(b)]
  {
    EscapeLineTokens(a, e, b);
    EscapeLineCount(a, e, b);
    var tail := [Escape(e)] + Plains(b);
    assert tail[0] == Escape(e) && tail[1..] == Plains(b);
    assert Plains(b) + [] == Plains(b);
    FillRun(a, tail, 0, 1, [], []);
    assert [] + Plains(a) == Plains(a);
    assert FillPass(tail, |a|, 1, [], Plains(a)) == FillPass(Plains(b) + [], |a|, 1, [], Plains(a) + [Escape(e)]);
    FillRun(b, [], |a|, 1, [], Plains(a) + [Escape(e)]);
    var line := Plains(a) + [Escape(e)] + Plains(b);
    assert FillPass([], |a| + |b|, 1, [], line) == [line];
  }

  /** An escape sequence in the middle of a line takes no columns: 80 visible
      bytes around a CSI still make one line, which holds the sequence whole. */
  lemma EscapeInLineIsFree(a: seq<byte>, e: seq<byte>, b: seq<byte>)
    requires Ordinary(a) && Ordinary(b) && |a| + |b| <= TextWidth
    requires e != [] && e[0] == ESC && EscapeLength(e + b) == |e|
    ensures SplitLines(a + e + b) == [a + e + b]
  {
    var line := Plains(a) + [Escape(e)] + Plains(b);
    EscapeLineFill(a, e, b);
    SplitLinesOf(a + e + b, [line]);
    FlattenAppend(Plains(a) + [Escape(e)], Plains(b));
    FlattenAppend(Plains(a), [Escape(e)]);
    FlattenCons(Escape(e), []);
    FlattenPlains(a);
    FlattenPlains(b);
    assert Flatten([Escape(e)]) == e;
    assert Flatten(line) == a + e + b;
    assert SplitLines(a + e + b)[0] == Flatten(line);
  }

  /** The 161 ordinary bytes as pass 1 and pass 2 see them: the first 80,
      the wrap-trigger byte, 79 more, and the last byte. */
  lemma LongTextTokens(x: seq<byte>)
    requires Ordinary(x) && |x| == 161
    ensures Tokenize(x) == Plains(x[..80]) + ([Plain(x[80])] + (Plains(x[81..160]) + [Plain(x[160])]))
  {
    var a, c := x[..80], x[81..160];
    assert x == a + [x[80]] + c + [x[160]];
    TokenizeOrdinary(x);
    PlainsAppend(a + [x[80]] + c, [x[160]]);
    PlainsAppend(a + [x[80]], c);
    PlainsAppend(a, [x[80]]);
  }

  /** Pass 1 over 161 ordinary bytes: the wrap-trigger byte resets the column
      to 0, so the second line has room for the remaining 80. */
  lemma LongTextCount(x: seq<byte>)
    requires Ordinary(x) && |x| == 161
    ensures LineCount(x) == 2
  {
    var a, c := x[..80], x[81..160];
    var m, z := Plain(x[80]), Plain(x[160]);
    var tail1 := [m] + (Plains(c) + [z]);
    LongTextTokens(x);
    assert tail1[0] == m && tail1[1..] == Plains(c) + [z];
    assert x[80] != NL && x[160] != NL;
    CountRun(a, tail1, 0, 1);
    assert CountPass(tail1, 80, 1) == CountPass(Plains(c) + [z], 0, 2);
    CountRun(c, [z], 0, 2);
    assert CountPass([z], 79, 2) == 2;
  }

  /** Pass 2 over 161 ordinary bytes: it counts the wrap-trigger byte as 1,
      so the last byte would need a third line and is dropped. */
  lemma LongTextFill(x: seq<byte>)
    requires Ordinary(x) && |x| == 161
    ensures SplitTokens(x) == [Plains(x[..80]), [Plain(x[80])] + Plains(x[81..160])]
  {
    var a, c := x[..80], x[81..160];
    var m, z := Plain(x[80]), Plain(x[160]);
    var tail1 := [m] + (Plains(c) + [z]);
    LongTextTokens(x);
    LongTextCount(x);
    assert tail1[0] == m && tail1[1..] == Plains(c) + [z];
    assert x[80] != NL && x[160] != NL;
    FillRun(a, tail1, 0, 2, [], []);
    assert [] + Plains(a) == Plains(a) && [] + [Plains(a)] == [Plains(a)];
    assert FillPass(tail1, 80, 2, [], Plains(a)) == FillPass(Plains(c) + [z], 1, 2, [Plains(a)], [m]);
    FillRun(c, [z], 1, 2, [Plains(a)], [m]);
    var second := [m] + Plains(c);
    assert FillPass([z], 80, 2, [Plains(a)], second) == [Plains(a), second];
  }

  /** The two passes disagree: any 161 ordinary bytes get two lines from
      pass 1, pass 2 needs a third for the last byte, hits the guard on the
      line index and stops, so the 161st byte is never shown. */
  lemma SecondPassDropsInput(x: seq<byte>)
    requires Ordinary(x) && |x| == 161
    ensures LineCount(x) == 2
    ensures SplitLines(x) == [x[..80], x[80..160]]
    ensures JoinLines(SplitLines(x)) == x[..160] != Unwrapped(x)
  {
    LongTextLines(x);
    // nothing was a newline, so the whole input should have been laid out
    JoinTwo(x[..80], x[80..160]);
    assert x[..80] + x[80..160] == x[..160];
    UnwrappedOrdinary(x);
    assert |x[..160]| != |x|;
  }

  /** The two lines the wrapper lays out for 161 ordinary bytes. */
  lemma LongTextLines(x: seq<byte>)
    requires Ordinary(x) && |x| == 161
    ensures LineCount(x) == 2
    ensures SplitLines(x) == [x[..80], x[80..160]]
  {
    LongTextCount(x);
    LongTextFill(x);
    SplitLinesOfTwo(x, Plains(x[..80]), [Plain(x[80])] + Plains(x[81..160]));
    FlattenPlains(x[..80]);
    FlattenPlainsCons(x[80], x[81..160]);
    SliceCons(x, 80, 160);
  }

  /** 161 ordinary bytes and a final newline, as tokens. */
  lemma LongLineTokens(x: seq<byte>)
    requires Ordinary(x) && |x| == 161
    ensures Tokenize(x + [NL]) == Plains(x[..80]) + ([Plain(x[80])] + (Plains(x[81..160]) + [Plain(x[160]), Plain(NL)]))
  {
    TokenizeEscFree(x, [NL]);
    assert Tokenize([NL]) == [Plain(NL)];
    LongTextTokens(x);
    TokenizeOrdinary(x);
    TailSnoc(Plains(x[..80]), Plain(x[80]), Plains(x[81..160]), Plain(x[160]), Plain(NL));
  }

  /** Sequence algebra: one more element after the long-run grouping. */
  lemma TailSnoc<T>(a: seq<T>, m: T, c: seq<T>, z: T, t: T)
    ensures a + ([m] + (c + [z])) + [t] == a + ([m] + (c + [z, t]))
  {
  }

  /** Pass 1 over 161 ordinary bytes and a newline: the reset on the
      wrap-trigger byte leaves room for 80 more, and the newline opens a
      third line. */
  lemma LongLineCount(x: seq<byte>)
    requires Ordinary(x) && |x| == 161
    ensures LineCount(x + [NL]) == 3
  {
    var a, c := x[..80], x[81..160];
    var m, z := Plain(x[80]), Plain(x[160]);
    var tail2 := [z, Plain(NL)];
    var tail1 := [m] + (Plains(c) + tail2);
    LongLineTokens(x);
    assert tail1[0] == m && tail1[1..] == Plains(c) + tail2;
    assert x[80] != NL && x[160] != NL;
    CountRun(a, tail1, 0, 1);
    assert CountPass(tail1, 80, 1) == CountPass(Plains(c) + tail2, 0, 2);
    CountRun(c, tail2, 0, 2);
    assert CountPass(tail2, 79, 2) == 3;
  }

  /** Pass 2 over the same input: the last byte takes the third line, and
      the newline then hits the guard on the line index. */
  lemma LongLineFill(x: seq<byte>)
    requires Ordinary(x) && |x| == 161
    ensures SplitTokens(x + [NL]) == [Plains(x[..80]), [Plain(x[80])] + Plains(x[81..160]), [Plain(x[160])]]
  {
    var a, c := x[..80], x[81..160];
    var m, z := Plain(x[80]), Plain(x[160]);
    var tail2 := [z, Plain(NL)];
    var tail1 := [m] + (Plains(c) + tail2);
    LongLineTokens(x);
    LongLineCount(x);
    assert tail1[0] == m && tail1[1..] == Plains(c) + tail2;
    assert x[80] != NL && x[160] != NL;
    FillRun(a, tail1, 0, 3, [], []);
    assert [] + Plains(a) == Plains(a) && [] + [Plains(a)] == [Plains(a)];
    assert FillPass(tail1, 80, 3, [], Plains(a)) == FillPass(Plains(c) + tail2, 1, 3, [Plains(a)], [m]);
    FillRun(c, tail2, 1, 3, [Plains(a)], [m]);
    var second := [m] + Plains(c);
    assert FillPass(tail2, 80, 3, [Plains(a)], second) == FillPass([Plain(NL)], 1, 3, [Plains(a), second], [z]);
    assert FillPass([Plain(NL)], 1, 3, [Plains(a), second], [z]) == [Plains(a), second, [z]];
  }

  /** A final newline after a run that needs a wrap adds no empty line: 161
      ordinary bytes and a newline get three lines, the last holding the
      161st byte, because pass 2 runs out of lines at the newline. */
  lemma TrailingNewlineAfterLongRun(x: seq<byte>)
    requires Ordinary(x) && |x| == 161
    ensures SplitLines(x + [NL]) == [x[..80], x[80..160], [x[160]]]
    ensures forall k :: 0 <= k < |SplitLines(x + [NL])| ==> SplitLines(x + [NL])[k] != []
  {
    LongLineFill(x);
    SplitLinesOfThree(x + [NL], Plains(x[..80]), [Plain(x[80])] + Plains(x[81..160]), [Plain(x[160])]);
    FlattenPlains(x[..80]);
    FlattenPlainsCons(x[80], x[81..160]);
    FlattenCons(Plain(x[160]), []);
    assert [Plain(x[160])] + [] == [Plain(x[160])];
    assert Flatten([Plain(x[160])]) == [x[160]];
    SliceCons(x, 80, 160);
    assert SplitLines(x + [NL]) == [x[..80], [x[80]] + x[81..160], [x[160]]];
  }

  lemma SplitLinesOfThree(s: seq<byte>, l0: seq<Token>, l1: seq<Token>, l2: seq<Token>)
    requires SplitTokens(s) == [l0, l1, l2]
    ensures SplitLines(s) == [Flatten(l0), Flatten(l1), Flatten(l2)]
  {
    SplitLinesOf(s, [l0, l1, l2]);
    FlattenEach3(l0, l1, l2);
  }

  /** Sequence algebra: the bytes of three lines. */
  lemma FlattenEach3(l0: seq<Token>, l1: seq<Token>, l2: seq<Token>)
    ensures seq(3, k requires 0 <= k < 3 => Flatten([l0, l1, l2][k])) == [Flatten(l0), Flatten(l1), Flatten(l2)]
  {
  }

  lemma SplitLinesOfTwo(s: seq<byte>, l0: seq<Token>, l1: seq<Token>)
    requires SplitTokens(s) == [l0, l1]
    ensures SplitLines(s) == [Flatten(l0), Flatten(l1)]
  {
    SplitLinesOf(s, [l0, l1]);
  }

  lemma FlattenPlainsCons(b: byte, y: seq<byte>)
    ensures Flatten([Plain(b)] + Plains(y)) == [b] + y
  {
    FlattenCons(Plain(b), Plains(y));
    FlattenPlains(y);
  }

  lemma JoinTwo(l0: seq<byte>, l1: seq<byte>)
    ensures JoinLines([l0, l1]) == l0 + l1
  {
    var ls := [l0, l1];
    assert ls[..1] == [l0] && [l0][..0] == [];
    assert JoinLines([l0]) == JoinLines([]) + l0;
  }

  /** With no escape and no newline, the input is itself the text the
      wrapper should lay out. */
  lemma UnwrappedOrdinary(x: seq<byte>)
    requires Ordinary(x)
    ensures Unwrapped(x) == x
  {
    TokenizeOrdinary(x);
    StripOrdinary(x);
    FlattenPlains(x);
  }

  lemma {:induction false} StripOrdinary(x: seq<byte>)
    requires Ordinary(x)
    ensures Strip(Plains(x)) == Plains(x)
    decreases |x|
  {
    if x != [] {
      assert Plains(x)[1..] == Plains(x[1..]);
      StripOrdinary(x[1..]);
    }
  }

  /** Empty text is one empty line: pass 1 starts its count at 1
      (render.c:198). */
  lemma EmptyTextIsOneLine()
    ensures SplitLines([]) == [[]]
  {
  }
}
